=== FILE: README.md ===
# Wallet ledger and balance handlers — a Dafny model

This project models the core of a wallet-backed gaming platform's HTTP API: the handlers
that record ledger rows in the `transacoes` table and move the `saldo` (balance) column of
`usuarios`, plus the pagination and input normalisation shared by the listing endpoints.

Each handler is a pure transition from a store and a request to a response and a new store:

- **Store** (`Ledger.Store`): the ledger rows as a sequence (a row's id is its position,
  which is also its insertion order) and a map from user id to a nullable balance. Amounts
  are integers (cents).
- **Store failures**: every store call a handler makes (`Ledger.StoreCall`) may fail; a
  handler receives the set of calls that fail, so every error path is a case of the model.
- **Deposit confirmation** (`ApplyDeposit`): validate, look up the deposit row by external
  id, no-op if it is completed, otherwise promote it (unconditionally) or insert a completed
  row, then credit the balance by read-then-write.
- **Provider notification** (`Webhook`): unwrap the payload, resolve the id from its
  aliases, ignore unconfirmed statuses, claim the row with a conditional update that only
  matches a non-completed row, and credit only when this call won the claim.
- **Generic POST** (`Transacoes.Post`): compute the signed delta of a bet/win/deposit, write
  the balance first, then insert the row; on insert failure write the old balance back.
- **Pending row creation** (`CreateTransaction`): insert one row, by default a pending
  `deposito`, without touching a balance.
- **Listings** (`Transacoes.List`, `Events`, `Usuarios`) over the shared `Pagination`
  arithmetic, the event summary map and event-input normalisation.

The handlers are written as their read and write steps (`ApplyDeposit.Check`/`Claim`,
`Webhook.Locate`/`CompareAndSet`/`Credit`, `Transacoes.Prepare`/`Commit`), so `Idempotency`
can state what happens when two callers interleave.

What the model shows about the code as written:

- Sequential confirmations and notifications of one deposit credit at most once, with any
  pattern of store failures (`Idempotency.AtMostOneCredit`).
- The confirmation's promotion has no status condition. A confirmation that read the
  pending row while a notification was claiming it credits the deposit a second time
  (`Idempotency.ConfirmationRacingNotificationCreditsTwice`).
- Two notifications racing on the same row credit once, because the conditional update is
  exclusive (`Idempotency.RacingNotificationsCreditOnce`).
- Balance writes are read-then-write. Two interleaved POSTs for one user lose the first
  update (`Idempotency.RacingPostsLoseAnUpdate`).
- A confirmation for a user with no `usuarios` row completes the ledger row and credits
  nothing. Every retry is then a no-op, so the deposit is never credited
  (`ApplyDeposit.MissingUserLosesDeposit`).
- A failed balance write in the notification is not rolled back, and redelivery credits
  nothing (`Webhook.FailedCreditIsNotRolledBack`).
- The POST does not deduplicate by external id (`Transacoes.RepeatedDepositPostCreditsTwice`).
  It stores the status exactly as sent, so a deposit posted as `COMPLETED` can be credited
  again by a notification (`Idempotency.UppercaseStatusEscapesGuard`).
- Rows from `create-transaction` default to kind `deposito` and carry no external id. The
  deposit lookups, which filter on `deposit` and an external id, never see them
  (`CreateTransaction.CreatedRowIsNeverADepositMatch`).

## Model

| member | source | states |
|---|---|---|
| `Ledger.ReadSaldo` | api/applyDeposit.js:73-83 | The balance read fails exactly when the call fails or the user row is missing; otherwise it yields the balance with a null `saldo` read as 0. |
| `Ledger.WriteSaldo` | api/applyDeposit.js:84-91 | The balance write fails exactly when the call fails. On success it sets that user's balance, leaves every other balance and the ledger alone, and changes nothing for a missing user. |
| `Ledger.Select` | api/transacoes.js:62-71 | An equality-filtered query returns exactly the ids of the rows the filter keeps, each once, in ascending (insertion) order. |
| `Ledger.FindDeposit` | api/applyDeposit.js:27-32 | The lookup by external id and kind `deposit` reports no row exactly when none matches, the unique match when there is one, and "several" exactly when two distinct rows match. |
| `Ledger.FindDepositAfterUpdate` | api/webhook_pixup.js:47-53 | Changing a row's status or amount, which leaves its external id and kind alone, does not change what the deposit lookup finds. |
| `Ledger.FindDepositAfterFirstInsert` | api/applyDeposit.js:53-63 | Inserting the first matching deposit row makes it the unique match. |
| `Ledger.LedgerSumUpdate` | api/applyDeposit.js:45-48 | Replacing one ledger row changes each user's ledger total by exactly the difference of the two rows' effects. |
| `ApplyDeposit.Check` | api/applyDeposit.js:14-41 | The read step rejects exactly the invalid requests, failed lookups and ambiguous lookups. It finds "already done" exactly when the deposit is settled, and otherwise plans a promotion of the pending row or an insert. |
| `ApplyDeposit.Claim` | api/applyDeposit.js:44-68 | The ledger write sets the row to `completed` and overwrites its amount with the request's, with no status condition; or it inserts one completed `deposit` row with the external id. Balances are untouched, and the write fails exactly on its store failure. |
| `ApplyDeposit.Handle` | api/applyDeposit.js:14-97 | Invalid input answers 400 and writes nothing. A failed lookup answers 500 before any write, and a settled deposit answers 200 with nothing written. A balance moves exactly when the credit is reported, by `valor`, to the requester only, and the reported `saldo` is the old balance (null as 0) plus `valor`. At most the one completed row is added. Conversely, a valid confirmation of a deposit that is neither settled nor ambiguous, for an existing user, is credited when no store call fails, whether the row is promoted or inserted. A failed promotion or insert answers 500 and writes nothing. A failed balance write answers 500 after the ledger row was written, with no balance change and no rollback. |
| `ApplyDeposit.ClaimSettles` | api/applyDeposit.js:44-68 | After a successful ledger write, exactly one deposit row carries the external id and it is completed. |
| `ApplyDeposit.HandleSettlesOrLeavesUnchanged` | api/applyDeposit.js:38-91 | Every confirmation either leaves the store untouched or leaves its deposit settled. |
| `ApplyDeposit.FailedBalanceWriteLosesDeposit` | api/applyDeposit.js:84-91 | When the balance write fails, the call answers 500 after completing the ledger row, credits nothing, and every retry is a 200 no-op. |
| `ApplyDeposit.MissingUserLosesDeposit` | api/applyDeposit.js:79-81 | With no user row, the call answers 404 after completing the ledger row, credits nothing, and every retry is a 200 no-op. |
| `Webhook.Payload` | api/webhook_pixup.js:19 | The payload is `requestBody` when present, else the body, else an empty object. |
| `Webhook.ResolveId` | api/webhook_pixup.js:20 | The id is the first non-empty of `external_id`, `externalId`, `txid`, and missing exactly when all three are empty. |
| `Webhook.ConfirmedExactlyForCaseVariants` | api/webhook_pixup.js:23-27 | A status confirms exactly when it spells `PAID` or `COMPLETED` with each letter in either case. This is stated against an independent case-variant definition, not the upper-casing itself. |
| `Webhook.ConfirmedExamples` | api/webhook_pixup.js:23-27 | `paid` and `Completed` confirm, while `pending` and `paid ` with a trailing space are ignored. |
| `Webhook.Locate` | api/webhook_pixup.js:23-43 | The status filter runs before the id check: an unconfirmed POST is answered 200 `ignored`. A target is chosen only for a confirmed status and the unique deposit row of the resolved id. |
| `Webhook.CompareAndSet` | api/webhook_pixup.js:47-63 | The conditional update wins exactly when the call does not fail and the row is not yet `completed`. Winning sets only that row's status and leaves balances alone. |
| `Webhook.Credit` | api/webhook_pixup.js:66-93 | Only a positive row amount is credited, to the row's user, as old balance plus amount. Without failures and with the user present, the credit happens. No other balance moves. For a positive amount, an unreadable or missing user row answers 404 and a failed balance write answers 500, and neither changes anything. |
| `Webhook.Handle` | api/webhook_pixup.js:14-93 | Unconfirmed statuses change nothing and answer 200 even without an id. A confirmed status without an id answers 400, and no unique deposit row answers 404. The webhook never inserts, and a settled deposit is never touched. A balance moves only for the claim's winner, by the row's amount, to the row's user, and no other user's balance moves. Conversely, when no store call fails, the winner on a non-completed row with a positive amount and an existing user credits it and answers success. A failed conditional update answers 500, and a claim lost to an already completed row answers `alreadyCompleted`; neither changes anything. |
| `Webhook.HandleSettlesOrLeavesUnchanged` | api/webhook_pixup.js:47-91 | Every notification either leaves the store untouched or leaves its deposit settled. |
| `Webhook.FailedCreditIsNotRolledBack` | api/webhook_pixup.js:86-90 | A failed balance write leaves the row completed with no credit, and a redelivery answers `alreadyCompleted` and credits nothing. |
| `Transacoes.Delta` | api/transacoes.js:165-169 | The delta has the magnitude of `valor`: non-positive for a bet, non-negative for a win or a deposit. |
| `Transacoes.RowOf` | api/transacoes.js:181-188 | The stored amount is the magnitude of `valor`, so it is never negative. |
| `Transacoes.Prepare` | api/transacoes.js:116-163 | It answers 400 exactly for a missing user, a non-numeric `valor`, a missing `tipo` or a kind other than bet/win/deposit after lower-casing. Going on requires a confirmed deposit status (default `completed`) and an existing user, and carries the balance read. A well-formed POST whose user row cannot be read (missing, or the read fails) answers 404. |
| `Transacoes.Commit` | api/transacoes.js:171-205 | It answers 201 exactly when the balance write and the insert both succeed. It then appends the one row and leaves the balance read plus the delta. Otherwise no row is added. When the insert fails but the compensating write succeeds, the balance read is written back. No other user's balance moves. |
| `Transacoes.Post` | api/transacoes.js:116-205 | Bad input answers 400 with nothing written, and an unconfirmed deposit answers 200 with nothing written. Success appends one row and moves the balance by that row's signed amount. A failed insert appends nothing and, when the compensating write succeeds, every balance is as read. Only the requester's balance can move. Conversely, a well-formed bet, win or confirmed deposit for an existing user answers 201 when no store call fails. |
| `Transacoes.PostPreservesReconciliation` | api/transacoes.js:163-193 | A successful POST whose status is exactly `completed` keeps every user's balance equal to their signed ledger total. |
| `Transacoes.PendingBetBreaksReconciliation` | api/transacoes.js:127 | A bet posted with a non-`completed` status still debits the balance, which then differs from the ledger total. |
| `Transacoes.RepeatedDepositPostCreditsTwice` | api/transacoes.js:166-193 | Posting the same confirmed deposit twice records two rows and credits twice the amount. |
| `Transacoes.KindFilter` | api/transacoes.js:58-71 | The kind filter is absent exactly when `type` is missing or lower-cases to `all`. When present, it is the lower-cased `type`. |
| `Transacoes.ItemOf` | api/transacoes.js:86-94 | An item carries the row's id, kind, amount and status. The description is the row's, or `''` when it is missing. The external id is null exactly when the row's is missing or empty, and otherwise it is the row's. |
| `Transacoes.Ordered` | api/transacoes.js:62-75 | The listed ids are exactly the requester's rows that pass the kind filter, ascending when `sort` is `date` and descending otherwise. |
| `Transacoes.List` | api/transacoes.js:43-110 | A missing user id answers 400. Otherwise the page holds at most the clamped page size (at most 100) and `currentPage` is the clamped page. `total` counts all matching rows. `totalPages` is the least page count that is at least 1 and covers them. The items are the requested window of the ordered rows. |
| `Transacoes.ListedItemsBelongToOwner` | api/transacoes.js:86-94 | Every listed item is a row of the requested user that passes the kind filter. |
| `CreateTransaction.RowOf` | api/create-transaction.js:20-26 | The inserted row has no external id; `tipo` defaults to `deposito` and `status` to `pending`. |
| `CreateTransaction.Handle` | api/create-transaction.js:18-34 | Non-POST answers 405. A falsy user or amount (including 0) answers 500 with no insert. No balance is ever touched, and success inserts exactly one row. Conversely, a valid POST whose insert succeeds inserts `RowOf(req)` and answers 200 with the new id, and a failed insert changes nothing. |
| `CreateTransaction.CreatedRowIsNeverADepositMatch` | api/create-transaction.js:20 | A created row never matches the deposit lookups; with the default kind it is not even a `deposit`. |
| `CreateTransaction.CreateDoesNotAffectDepositLookup` | api/create-transaction.js:24-28 | Creating a row never changes what a deposit lookup finds, for any external id. |
| `Pagination.ClampPage` | api/transacoes.js:53 | The page is at least 1 and equals the request when that is valid. |
| `Pagination.ClampSize` | api/usuarios.js:23 | The page size lies between 1 and the limit and equals the request when that is in range. |
| `Pagination.RangeOf` | api/usuarios.js:24-25 | The window starts at a non-negative index and holds exactly `size` rows. |
| `Pagination.RangeOfContains` | api/events.js:70-71 | Row `i` lies in the window of page `p` exactly when `p == i / size + 1`. |
| `Pagination.TotalPages` | api/transacoes.js:97 | `totalPages` is the least page count that is at least 1 and whose pages hold `total` rows. |
| `Pagination.FirstPagesArePrefix` | api/transacoes.js:78-80 | Reading pages 1 to `n` returns the first `n * size` rows in order, with none missed or repeated. |
| `Pagination.AllPagesCoverResult` | api/transacoes.js:78-97 | Reading pages 1 to `totalPages` returns the whole result exactly once. |
| `Pagination.PagesBeyondTotalAreEmpty` | api/usuarios.js:45 | A page past `totalPages` is empty, and when there are rows every page up to it is not. |
| `Events.Summary` | api/events.js:35-57 | The summary has exactly the six categories as keys. Each maps to its query's count, or 0 when that query errored, returned a null count or is missing. |
| `Events.PlanList` | api/events.js:68-83 | The requested page, or 1 when it is missing or below 1. The requested page size held between 1 and 200, or 50 when it is missing. Page at least 1, page size between 1 and 200, window `(p-1)*ps` to `from+ps-1`. The category filter is skipped exactly for an empty or `all` category, and is otherwise lower-cased. |
| `Events.ListResponse` | api/events.js:85-96 | A failed query is an error. Otherwise the items are the returned rows (none when null) and `currentPage` is the clamped page. `total` is the count, or the number of returned rows when the count is missing. `totalPages` is the least page count that is at least 1 and covers `total`. |
| `Events.PropsOf` | api/events.js:120 | `props` is kept exactly when it is an object or an array. |
| `Events.ClientIp` | api/events.js:122-125 | The IP is the trimmed first comma-separated entry of `x-forwarded-for` when non-empty, else the socket address, else null. |
| `Events.ForwardedIpIsFirstEntry` | api/events.js:123 | A forwarded IP never contains a comma and is no longer than the header's first entry. |
| `Events.Normalize` | api/events.js:113-129 | It is rejected exactly when the trimmed name is empty. Otherwise the name is trimmed and non-empty and `category` defaults to `system` or is lower-cased. `uid` is null exactly when it trims to empty, and else is trimmed. |
| `Events.Post` | api/events.js:104-131 | OPTIONS is answered by the preflight of line 7, any other non-POST method answers 405, and a non-object body or an empty name answers 400. The event is stored exactly when the input is valid and the insert succeeds, and it is the normalised record. |
| `Events.RenormalizingChangesNothing` | api/events.js:113-119 | Normalising an already normalised event leaves its name, category and uid unchanged. |
| `Usuarios.PlanOf` | api/usuarios.js:15-35 | The requested page, or 1 when it is missing or below 1. The requested page size held between 1 and 200, or 100 when it is missing. A window of exactly that size. The order is ascending exactly when the lower-cased `orderDir` is `asc`, and the search applies exactly when `q` is non-empty. |
| `Usuarios.Handle` | api/usuarios.js:6-48 | OPTIONS is answered by the preflight, any other non-GET method answers 405, and a failed query answers 500. A successful query answers a page holding the returned rows, or none when the data is null. The pagination block has `totalPages` at least 1 and the least such count covering `total`, and `pageSize` and `currentPage` are the clamped values. `total` is the count, or the number of returned rows when the count is missing. |
| `Text.TrimStart` | api/events.js:113 | Trimming the start keeps a suffix that does not start with whitespace; everything removed is whitespace. |
| `Text.TrimEnd` | api/events.js:113 | Trimming the end keeps a prefix that does not end with whitespace; everything removed is whitespace. |
| `Text.Trim` | api/events.js:113-116 | The result is a contiguous piece of the input, and everything cut from either end is whitespace. It has no whitespace at either end, and it is empty exactly when the input is all whitespace. |
| `Text.ToLower` | api/events.js:118 | Lower-casing keeps the length and maps each upper-case letter to its lower-case counterpart. It keeps every other character, so no upper-case letter is left. |
| `Text.ToUpper` | api/webhook_pixup.js:23 | Upper-casing keeps the length and maps each lower-case letter to its upper-case counterpart. It keeps every other character, so no lower-case letter is left. |
| `Text.FirstField` | api/events.js:123 | The result is the longest prefix without the separator. |
| `Idempotency.AtMostOneCredit` | api/webhook_pixup.js:47-63 | Any sequence of confirmations and notifications of one deposit credits a balance at most once, whatever the store failures. |
| `Idempotency.SettledIsFrozen` | api/applyDeposit.js:38-41 | Once a deposit is settled, no further confirmation or notification of it changes the store. |
| `Idempotency.NoSecondDepositRow` | api/applyDeposit.js:53-63 | Those sequences never create a second deposit row for the external id. |
| `Idempotency.BothConfirmationsCreditOnce` | api/webhook_pixup.js:66-85 | Take a pending deposit confirmed by both the provider and the client, in either order, without failures. The user's balance rises by exactly the amount and exactly one completed row remains. |
| `Idempotency.RacingNotificationsCreditOnce` | api/webhook_pixup.js:47-85 | Two notifications that both read the pending row before claiming credit the amount once. |
| `Idempotency.ConfirmationRacingNotificationCreditsTwice` | api/applyDeposit.js:44-48 | A confirmation that read the pending row while a notification claimed it still promotes it and credits a second time. |
| `Idempotency.RacingPostsLoseAnUpdate` | api/transacoes.js:150-178 | Two POSTs that read the balance before either writes both record rows, but the balance reflects only the second delta. |
| `Idempotency.UppercaseStatusEscapesGuard` | api/transacoes.js:144-185 | A deposit posted with status `COMPLETED` is stored as such. A notification for its external id then credits it again, for twice the amount in total. |
| `Reconciliation.ConfirmationKeepsReconciled` | api/applyDeposit.js:44-91 | A crediting confirmation keeps every user's balance equal to their ledger total when the completed row is the requester's. |
| `Reconciliation.ConfirmationOfAnotherUsersRow` | api/applyDeposit.js:44-48 | Promoting another user's pending row credits the requester while the ledger counts it for the owner, so the requester is no longer reconciled. If the row's owner was reconciled, they are no longer either: the ledger counts the amount for them while their balance is unchanged. |
| `Reconciliation.MissingUserBreaksReconciliation` | api/applyDeposit.js:79-81 | With no user row, the ledger total grows by the deposit while the balance does not. |
| `Reconciliation.NotificationKeepsReconciled` | api/webhook_pixup.js:66-85 | A crediting notification keeps every user's balance equal to their ledger total. |
| `Reconciliation.FailedNotificationCreditBreaksReconciliation` | api/webhook_pixup.js:86-90 | A failed balance write leaves the owner's ledger total ahead of their balance. |

## Left out

- CORS headers and the preflight plumbing (`setCORS`, the inline header blocks, `api/utils/cors.js`). These only set headers. The OPTIONS answer is kept as a response with no store change: 200, 204 or the preflight reply, depending on the handler.
- The CORS helper import in `api/events.js` and `api/usuarios.js`: both import `applyCors` and `handlePreflight`, but `api/utils/cors.js` exports only `applyCORS` and `handleOPTIONS`. As written, both modules fail to load before any handler code runs. `Events.Post` and `Usuarios.Handle` model the handlers as if the import resolved to those two helpers, with OPTIONS answered by the preflight and nothing else changed. The load failure itself is not modelled.
- Authentication, registration, the single-user lookup and the placeholder affiliate and bet endpoints. They are foreign calls or constant data.
- The store's query builder. `.eq`/`.neq` are equality filters over the rows, and `.single()`/`.maybeSingle()` report no row, one row or several. Network and database errors are modelled as a per-call failure set, and error messages are not modelled.
- `Webhook.CompareAndSet`: when nothing matches, the conditional update is modelled as returning no row, which gives `alreadyCompleted`. The store's single-row rule may instead report an error here, which gives a 500. That case is the update's failure in the fault set, and in both cases nothing is credited.
- `Transacoes.List`: `total` is taken to be the store's exact count of matching rows; the fallback to the page length when no count is returned is not modelled for this listing.
- Row ordering by `criado_em` / `created_at`: insertion order stands for creation time, and timestamps are not modelled.
- The default 24-hour window of the event summary, which uses the clock. The summary's count queries are inputs.
- Events and users tables: their listing queries and the event insert are inputs (`QueryResult`, `InsertOutcome`). The regular-expression test that chooses 400 or 500 for a failed insert is the `badInput` flag.
- The HTTP status of a failed event listing, which also goes through that classification. `Events.ListResponse` only reports that it failed.
- `JSON.parse` of a string body, and `parseInt` on text. Pagination inputs are already-parsed integers, so a non-numeric page (NaN) is not modelled.
- JavaScript numbers. Amounts are integers (cents), so `Number(...)` coercion, `NaN`, floating-point `Math.abs` and `Math.ceil` are not modelled.
- Field values that are not strings, such as a numeric `txid` or `usuario_id`. Falsy strings are the empty string.
- Case mapping and trimming cover ASCII letters and the common whitespace characters only, not full Unicode.
- A missing request body in `create-transaction`, which throws outside its `try`.
- Logging.
- General concurrency. Only the two-caller interleavings in `Idempotency` are modelled, not arbitrary schedules.

=== FILE: apply_deposit.dfy ===
/** The client-side deposit confirmation (`POST /api/applyDeposit`): validate, look the
    deposit row up by external id, promote it (or insert a completed one) unless it is already
    completed, then credit the user's balance by read-then-write.

    The handler is written as its store steps so that two calls can be interleaved:
    `Check` (validation and lookup, reads only), `Claim` (the ledger write), then the balance
    read and write of `Ledger.ReadSaldo` / `Ledger.WriteSaldo`. */
module ApplyDeposit {
  import opened Common
  import opened Ledger
  import opened Http

  datatype Request = Request(verb: string, usuarioId: string, externalId: string, valor: Option<int>)

  /** The body fields are present and `valor` is a number (`typeof valor === 'number'`). */
  predicate HasFields(req: Request) {
    req.usuarioId != "" && req.externalId != "" && req.valor.Some?
  }

  /** A request that passes both validation checks. */
  predicate Valid(req: Request) {
    req.verb == "POST" && HasFields(req) && req.valor.value > 0
  }

  /** What the read step decided. */
  datatype Plan =
    | Reject(resp: Response)  // answered without touching the store
    | AlreadyDone             // the deposit row is completed
    | Promote(id: nat)        // a non-completed deposit row exists
    | InsertNew               // no deposit row exists

  /** The read step: method and field validation, then the `.maybeSingle()` lookup. */
  function Check(s: Store, req: Request, faults: Faults): (p: Plan)
    ensures p.Reject? <==> !Valid(req) || SelectDeposit in faults || FindDeposit(s.rows, req.externalId).ManyRows?
    ensures p.AlreadyDone? <==> Valid(req) && SelectDeposit !in faults && Settled(s, req.externalId)
    ensures p.Promote? ==> p.id < |s.rows| && FindDeposit(s.rows, req.externalId) == OneRow(p.id)
                           && s.rows[p.id].status != Completed
    ensures p.InsertNew? ==> FindDeposit(s.rows, req.externalId).NoRow?
    ensures !p.Reject? ==> Valid(req)
  {
    if req.verb == "OPTIONS" then Reject(Response(200, NoContent))
    else if req.verb != "POST" then Reject(Response(405, Failure))
    else if !HasFields(req) then Reject(Response(400, Failure))
    else if req.valor.value <= 0 then Reject(Response(400, Failure))
    else if SelectDeposit in faults then Reject(Response(500, Failure))
    else
      match FindDeposit(s.rows, req.externalId)
      case ManyRows => Reject(Response(500, Failure))
      case NoRow => InsertNew
      case OneRow(id) => if s.rows[id].status == Completed then AlreadyDone else Promote(id)
  }

  /** The completed row inserted when no deposit row exists. */
  function NewRow(req: Request): Row
    requires HasFields(req)
  {
    Row(req.usuarioId, req.valor.value, Deposit, Completed, Some(req.externalId), Some("Depósito confirmado"))
  }

  /** The ledger write step: `update({status: 'completed', valor}).eq('id', id)` with no
      condition on the current status, or the insert of a completed row. `None` when the
      store call fails. */
  function Claim(s: Store, req: Request, p: Plan, faults: Faults): (r: Option<Store>)
    requires HasFields(req)
    requires p.Promote? || p.InsertNew?
    ensures r.Some? ==> r.value.users == s.users
    ensures r.Some? && p.InsertNew? ==> r.value.rows == s.rows + [NewRow(req)]
    ensures r.Some? && p.Promote? && p.id < |s.rows| ==>
      r.value.rows == s.rows[p.id := s.rows[p.id].(status := Completed, valor := req.valor.value)]
    ensures r.None? <==> (p.Promote? && UpdateDeposit in faults) || (p.InsertNew? && InsertTransaction in faults)
  {
    match p
    case Promote(id) =>
      if UpdateDeposit in faults then None
      else if id < |s.rows| then
        Some(s.(rows := s.rows[id := s.rows[id].(status := Completed, valor := req.valor.value)]))
      else Some(s)
    case InsertNew =>
      if InsertTransaction in faults then None
      else Some(s.(rows := s.rows + [NewRow(req)]))
  }

  /** The whole handler, its steps run back to back. */
  function Handle(s: Store, req: Request, faults: Faults): (r: Step<Response>)
    // invalid input: 400 and nothing written
    ensures req.verb == "POST" && !Valid(req) ==> r.resp.code == 400 && r.next == s
    ensures r.resp.code == 400 <==> req.verb == "POST" && !Valid(req)
    // a failed ledger read answers 500 before any write
    ensures Valid(req) && SelectDeposit in faults ==> r.resp.code == 500 && r.next == s
    // an already completed deposit is a successful no-op
    ensures Valid(req) && SelectDeposit !in faults && Settled(s, req.externalId) ==>
      r.resp == Response(200, AlreadyProcessed) && r.next == s
    // the balance moves exactly when the credit is reported, and then by `valor`
    ensures r.resp.body.Deposited? <==> r.next.users != s.users
    ensures r.resp.body.Deposited? ==>
      && Valid(req) && !Settled(s, req.externalId)
      && r.resp.code == 200
      && r.resp.body.saldo == Balance(s, req.usuarioId) + req.valor.value
      && Balance(r.next, req.usuarioId) == Balance(s, req.usuarioId) + req.valor.value
      && forall w :: w != req.usuarioId ==> Balance(r.next, w) == Balance(s, w)
    // at most one row is added, and only as the completed deposit of this external id
    ensures |r.next.rows| == |s.rows| || (HasFields(req) && r.next.rows == s.rows + [NewRow(req)])
    // a valid confirmation of an unsettled deposit for an existing user is credited when no
    // store call fails, whether the row is promoted or inserted
    ensures Valid(req) && req.usuarioId in s.users && !Settled(s, req.externalId)
            && !FindDeposit(s.rows, req.externalId).ManyRows? && faults == {} ==>
      r.resp.body.Deposited?
    // a failed promotion or insert answers 500 and writes nothing
    ensures Valid(req) && SelectDeposit !in faults && !Settled(s, req.externalId)
            && ((FindDeposit(s.rows, req.externalId).OneRow? && UpdateDeposit in faults)
                || (FindDeposit(s.rows, req.externalId).NoRow? && InsertTransaction in faults)) ==>
      r == Step(Response(500, Failure), s)
    // a failed balance write answers 500 after the ledger row was written, with no rollback
    ensures Valid(req) && req.usuarioId in s.users && !Settled(s, req.externalId)
            && !FindDeposit(s.rows, req.externalId).ManyRows?
            && SelectDeposit !in faults && UpdateDeposit !in faults && InsertTransaction !in faults
            && SelectUser !in faults && UpdateBalance in faults ==>
      r.resp == Response(500, Failure) && r.next.users == s.users && r.next.rows != s.rows
  {
    var p := Check(s, req, faults);
    match p
    case Reject(resp) => Step(resp, s)
    case AlreadyDone => Step(Response(200, AlreadyProcessed), s)
    case _ =>
      match Claim(s, req, p, faults)
      case None => Step(Response(500, Failure), s)
      case Some(s1) =>
        match ReadSaldo(s1, req.usuarioId, faults)
        case None => Step(Response(404, Failure), s1)
        case Some(saldo) =>
          var novo := saldo + req.valor.value;
          match WriteSaldo(s1, req.usuarioId, novo, faults)
          case None => Step(Response(500, Failure), s1)
          case Some(s2) => Step(Response(200, Deposited(novo)), s2)
  }

  /** A successful ledger write leaves the deposit settled: exactly one deposit row carries
      the external id, and it is completed. */
  lemma ClaimSettles(s: Store, req: Request, faults: Faults)
    requires Check(s, req, faults).Promote? || Check(s, req, faults).InsertNew?
    requires Claim(s, req, Check(s, req, faults), faults).Some?
    ensures Settled(Claim(s, req, Check(s, req, faults), faults).value, req.externalId)
  {
    var p := Check(s, req, faults);
    var s1 := Claim(s, req, p, faults).value;
    if p.Promote? {
      FindDepositAfterUpdate(s.rows, p.id, s.rows[p.id].(status := Completed, valor := req.valor.value), req.externalId);
    } else {
      FindDepositAfterFirstInsert(s.rows, NewRow(req), req.externalId);
    }
  }

  /** Every call either leaves the store exactly as it was or leaves the deposit settled. */
  lemma HandleSettlesOrLeavesUnchanged(s: Store, req: Request, faults: Faults)
    ensures Handle(s, req, faults).next == s || Settled(Handle(s, req, faults).next, req.externalId)
  {
    var p := Check(s, req, faults);
    if p.Promote? || p.InsertNew? {
      var c := Claim(s, req, p, faults);
      if c.Some? {
        ClaimSettles(s, req, faults);
        var s1 := c.value;
        var r := Handle(s, req, faults);
        assert r.next.rows == s1.rows;
        assert FindDeposit(r.next.rows, req.externalId) == FindDeposit(s1.rows, req.externalId);
      }
    }
  }

  /** When the user row is missing the ledger still records the deposit as completed, the
      balance is not credited, and every later confirmation of the same deposit is a no-op:
      the deposit is never credited. */
  lemma MissingUserLosesDeposit(s: Store, req: Request, faults: Faults, retry: Faults)
    requires Valid(req) && req.usuarioId !in s.users
    requires SelectDeposit !in faults && UpdateDeposit !in faults && InsertTransaction !in faults
    requires SelectDeposit !in retry
    requires !Settled(s, req.externalId) && !FindDeposit(s.rows, req.externalId).ManyRows?
    ensures Handle(s, req, faults).resp.code == 404
    ensures Settled(Handle(s, req, faults).next, req.externalId)
    ensures Handle(s, req, faults).next.users == s.users
    ensures Handle(Handle(s, req, faults).next, req, retry) == Step(Response(200, AlreadyProcessed), Handle(s, req, faults).next)
  {
    ClaimSettles(s, req, faults);
  }

  /** When the balance write fails the ledger row stays completed and the balance is not
      credited, so every later confirmation of the same deposit is a no-op: the deposit is
      never credited. */
  lemma FailedBalanceWriteLosesDeposit(s: Store, req: Request, faults: Faults, retry: Faults)
    requires Valid(req) && req.usuarioId in s.users
    requires SelectDeposit !in faults && UpdateDeposit !in faults && InsertTransaction !in faults
    requires SelectUser !in faults && UpdateBalance in faults
    requires SelectDeposit !in retry
    requires !Settled(s, req.externalId) && !FindDeposit(s.rows, req.externalId).ManyRows?
    ensures Handle(s, req, faults).resp == Response(500, Failure)
    ensures Settled(Handle(s, req, faults).next, req.externalId)
    ensures Handle(s, req, faults).next.users == s.users
    ensures Handle(Handle(s, req, faults).next, req, retry) == Step(Response(200, AlreadyProcessed), Handle(s, req, faults).next)
  {
    ClaimSettles(s, req, faults);
  }

  /** Once the deposit is settled, every call for it, valid or not, changes nothing. */
  lemma SettledIsNoop(s: Store, req: Request, faults: Faults)
    requires Settled(s, req.externalId)
    ensures Handle(s, req, faults).next == s
  {
  }
}

=== FILE: common.dfy ===
/** Small shared vocabulary: an optional value (JavaScript's null/undefined) and integer helpers. */
module Common {

  /** A value that may be missing; `None` plays the role of `null`/`undefined`. */
  datatype Option<+T> = None | Some(value: T) {

    /** The value, or `default` when missing (JavaScript's `x ?? d`). */
    function GetOr(default: T): T {
      match this
      case Some(v) => v
      case None => default
    }
  }

  /** `Math.abs` on an integer amount. */
  function Abs(x: int): (r: nat)
    ensures r == x || r == -x
  {
    if x < 0 then -x else x
  }

  function Max(a: int, b: int): int {
    if a < b then b else a
  }

  function Min(a: int, b: int): int {
    if a < b then a else b
  }
}

=== FILE: create_transaction.dfy ===
/** `POST /api/create-transaction`: insert one row, by default a pending `deposito`, without
    touching any balance. The inserted row carries no external id. */
module CreateTransaction {
  import opened Common
  import opened Ledger
  import opened Http

  /** The body fields read; `""` is a missing or falsy `usuario_id`, `valor` is `None` when
      absent, and `tipo`/`status` are `None` when absent (so that their defaults apply). */
  datatype Request = Request(verb: string, usuarioId: string, valor: Option<int>, tipo: Option<string>, status: Option<string>)

  /** The default kind. It is not the `deposit` that the deposit lookups filter on. */
  const DefaultTipo := "deposito"

  /** `!usuario_id || !valor`: a missing user, a missing amount or an amount of 0. */
  predicate Rejected(req: Request) {
    req.usuarioId == "" || req.valor.None? || req.valor.value == 0
  }

  function RowOf(req: Request): (r: Row)
    requires req.valor.Some?
    ensures r.externalId.None?
    ensures req.tipo.None? ==> r.tipo == DefaultTipo
    ensures req.status.None? ==> r.status == Pending
  {
    Row(req.usuarioId, req.valor.value, req.tipo.GetOr(DefaultTipo), req.status.GetOr(Pending), None, None)
  }

  /** The handler. The missing-field error is thrown inside the `try` and answered by its
      `catch`, so it is a 500 like a failed insert. */
  function Handle(s: Store, req: Request, faults: Faults): (r: Step<Response>)
    ensures req.verb != "POST" && req.verb != "OPTIONS" ==> r == Step(Response(405, NoContent), s)
    ensures req.verb == "POST" && Rejected(req) ==> r == Step(Response(500, Failure), s)
    // a balance is never touched
    ensures r.next.users == s.users
    // exactly one row is inserted on success, and none otherwise
    ensures r.resp.code == 200 && req.verb == "POST" <==> r.next != s
    ensures r.next != s ==> !Rejected(req) && r.next.rows == s.rows + [RowOf(req)]
                            && r.resp.body == Created(|s.rows|)
    // a valid POST whose insert succeeds creates the row and answers 200
    ensures req.verb == "POST" && !Rejected(req) && InsertTransaction !in faults ==>
      r.next.rows == s.rows + [RowOf(req)] && r.resp == Response(200, Created(|s.rows|))
    // a failed insert changes nothing
    ensures InsertTransaction in faults ==> r.next == s
  {
    if req.verb == "OPTIONS" then Step(Response(200, NoContent), s)
    else if req.verb != "POST" then Step(Response(405, NoContent), s)
    else if Rejected(req) then Step(Response(500, Failure), s)
    else if InsertTransaction in faults then Step(Response(500, Failure), s)
    else Step(Response(200, Created(|s.rows|)), s.(rows := s.rows + [RowOf(req)]))
  }

  /** A row created here is never the row the deposit confirmation or the webhook looks up:
      it has no external id, and with the default kind it is not even a `deposit`. */
  lemma CreatedRowIsNeverADepositMatch(req: Request, e: string)
    requires req.valor.Some?
    ensures !IsDepositFor(RowOf(req), e)
    ensures req.tipo.None? ==> RowOf(req).tipo != Deposit
  {
  }

  /** Creating a row never changes what a deposit lookup sees, for any external id. */
  lemma CreateDoesNotAffectDepositLookup(s: Store, req: Request, faults: Faults, e: string)
    ensures FindDeposit(Handle(s, req, faults).next.rows, e) == FindDeposit(s.rows, e)
  {
    var r := Handle(s, req, faults);
    if r.next != s {
      FindDepositAfterOtherInsert(s.rows, RowOf(req), e);
    }
  }
}

=== FILE: events.dfy ===
/** `/api/events`: the per-category summary and the paginated listing (GET), and the
    normalisation of a new event before it is stored (POST). The events table itself is an
    external store: its query results and insert outcome are inputs here. */
module Events {
  import opened Common
  import opened Text
  import opened Pagination

  // ---------------------------------------------------------------------------------------
  // GET ?summary=1

  /** The six fixed categories, in the order their counts are requested. */
  const Categories: seq<string> := ["auth", "wallet", "game", "admin", "system", "debug"]

  /** One count query's result: an error, or a count that may be null. */
  datatype CountResult = CountFailed | Counted(count: Option<nat>)

  /** `error ? 0 : Number(count || 0)`. */
  function CountOf(r: CountResult): nat {
    match r
    case CountFailed => 0
    case Counted(c) => c.GetOr(0)
  }

  /** The count reported for the `i`-th category: its query's count, or 0 when that query
      errored or returned nothing. */
  function CountAt(results: seq<CountResult>, i: nat): nat {
    if i < |results| then CountOf(results[i]) else 0
  }

  /** The summary map: exactly the six categories, each mapped to its count; a failing
      count query zeroes its own category and no other. */
  function Summary(results: seq<CountResult>): (m: map<string, nat>)
    ensures m.Keys == {"auth", "wallet", "game", "admin", "system", "debug"}
    ensures forall i :: 0 <= i < |Categories| ==>
      m[Categories[i]] == (if i < |results| && results[i].Counted? then results[i].count.GetOr(0) else 0)
  {
    map["auth" := CountAt(results, 0), "wallet" := CountAt(results, 1), "game" := CountAt(results, 2),
        "admin" := CountAt(results, 3), "system" := CountAt(results, 4), "debug" := CountAt(results, 5)]
  }

  // ---------------------------------------------------------------------------------------
  // GET list

  /** The listing query string; `page`/`pageSize` are the parsed numbers (`None` when
      absent), the text filters `""` when absent. */
  datatype ListQuery = ListQuery(
    page: Option<int>, pageSize: Option<int>, category: string, uid: string, name: string, since: string, until: string)

  /** The query the handler sends: equality filters, the `created_at` bounds, the window. */
  datatype ListPlan = ListPlan(
    page: int, pageSize: int, window: Window,
    category: Option<string>, uid: Option<string>, name: Option<string>,
    since: Option<string>, until: Option<string>)

  const MaxPageSize := 200

  function NonEmpty(s: string): Option<string> {
    if s == "" then None else Some(s)
  }

  /** Builds the listing query. The `all` test runs before lower-casing, so `ALL` filters on
      a category named `all`. */
  function PlanList(q: ListQuery): (p: ListPlan)
    ensures p.page >= 1 && 1 <= p.pageSize <= MaxPageSize
    // the requested page, or page 1 when it is missing or below 1
    ensures p.page == if q.page.Some? && q.page.value >= 1 then q.page.value else 1
    // the requested size held between 1 and 200, or 50 when it is missing
    ensures q.pageSize.None? ==> p.pageSize == 50
    ensures q.pageSize.Some? ==>
      p.pageSize == if q.pageSize.value < 1 then 1 else if q.pageSize.value > MaxPageSize then MaxPageSize else q.pageSize.value
    ensures p.window == RangeOf(p.page, p.pageSize)
    ensures p.window.first == (p.page - 1) * p.pageSize && p.window.last == p.window.first + p.pageSize - 1
    ensures p.category.None? <==> q.category == "" || q.category == "all"
    ensures p.category.Some? ==> p.category.value == ToLower(q.category)
  {
    var page := ClampPage(q.page.GetOr(1));
    var size := ClampSize(q.pageSize.GetOr(50), MaxPageSize);
    ListPlan(page, size, RangeOf(page, size),
             if q.category == "" || q.category == "all" then None else Some(ToLower(q.category)),
             NonEmpty(q.uid), NonEmpty(q.name), NonEmpty(q.since), NonEmpty(q.until))
  }

  /** The result of the listing query. */
  datatype QueryResult<T> = QueryFailed | QueryRows(data: Option<seq<T>>, count: Option<nat>)

  datatype ListReply<T> =
    | ListFailed
    | EventPage(items: seq<T>, total: nat, totalPages: int, currentPage: int)

  /** The listing response; `total` is the exact count, or the number of rows returned when
      the count is missing. */
  function ListResponse<T>(p: ListPlan, result: QueryResult<T>): (r: ListReply<T>)
    requires p.page >= 1 && p.pageSize >= 1
    ensures r.ListFailed? <==> result.QueryFailed?
    ensures r.EventPage? ==> r.totalPages >= 1 && r.total <= r.totalPages * p.pageSize
                             && r.currentPage == p.page
    ensures r.EventPage? ==> r.totalPages == 1 || (r.totalPages - 1) * p.pageSize < r.total
    ensures r.EventPage? && result.count.Some? ==> r.total == result.count.value
    ensures r.EventPage? && result.count.None? ==> r.total == |result.data.GetOr([])|
    ensures r.EventPage? ==> r.items == result.data.GetOr([])
  {
    match result
    case QueryFailed => ListFailed
    case QueryRows(data, count) =>
      var rows := data.GetOr([]);
      var total := count.GetOr(|rows|);
      EventPage(rows, total, TotalPages(total, p.pageSize), p.page)
  }

  // ---------------------------------------------------------------------------------------
  // POST

  /** A JSON value, as far as the `props` check needs one. */
  datatype Json =
    | JNull
    | JBool(b: bool)
    | JNumber(n: int)
    | JString(s: string)
    | JArray(elems: seq<Json>)
    | JObject(fields: seq<(string, Json)>)

  /** The body fields read; `""` is a missing or falsy text field, `JNull` a missing `props`. */
  datatype EventBody = EventBody(name: string, category: string, uid: string, props: Json)

  /** The request headers read; `""` when absent. */
  datatype Headers = Headers(forwardedFor: string, remoteAddress: string, userAgent: string)

  /** The row to insert. */
  datatype EventRecord = EventRecord(
    name: string, category: string, uid: Option<string>, props: Option<Json>, ip: Option<string>, ua: Option<string>)

  /** `body.props && typeof body.props === 'object'`: arrays and objects are kept. */
  function PropsOf(j: Json): (p: Option<Json>)
    ensures p.Some? <==> j.JArray? || j.JObject?
    ensures p.Some? ==> p.value == j
  {
    if j.JArray? || j.JObject? then Some(j) else None
  }

  /** The client address: the trimmed first entry of `x-forwarded-for`, else the socket
      address, else null. */
  function ClientIp(h: Headers): (ip: Option<string>)
    ensures ip.Some? ==> ip.value != ""
    ensures Trim(FirstField(h.forwardedFor, ',')) != "" ==> ip == Some(Trim(FirstField(h.forwardedFor, ',')))
    ensures Trim(FirstField(h.forwardedFor, ',')) == "" ==> ip == NonEmpty(h.remoteAddress)
  {
    var first := Trim(FirstField(h.forwardedFor, ','));
    if first != "" then Some(first) else NonEmpty(h.remoteAddress)
  }

  /** The forwarded address never contains a comma and is a trimmed piece of the header's
      first entry. */
  lemma ForwardedIpIsFirstEntry(h: Headers)
    requires Trim(FirstField(h.forwardedFor, ',')) != ""
    ensures ',' !in ClientIp(h).value
    ensures |ClientIp(h).value| <= |FirstField(h.forwardedFor, ',')|
  {
    TrimKeepsAbsentChar(FirstField(h.forwardedFor, ','), ',');
  }

  /** The outcome of the insert: success, or an error whose message the handler classifies
      as bad input (400) or not (500). */
  datatype InsertOutcome = InsertOk | InsertFailed(badInput: bool)

  /** `Preflight` is the 204 the CORS helper answers to `OPTIONS` before the handler runs. */
  datatype PostReply = Preflight | PostRejected(code: int) | Stored(record: EventRecord)

  const DefaultCategory := "system"

  /** Normalises the body into the row to insert: `name` trimmed and required, `category`
      defaulted to `system` and lower-cased, an empty `uid` collapsed to null, `props` kept
      only when it is an object. */
  function Normalize(body: EventBody, h: Headers): (r: Option<EventRecord>)
    ensures r.None? <==> Trim(body.name) == ""
    ensures r.Some? ==>
      && r.value.name == Trim(body.name) && r.value.name != ""
      && (body.category == "" ==> r.value.category == DefaultCategory)
      && (body.category != "" ==> r.value.category == ToLower(body.category))
      && (r.value.uid.None? <==> Trim(body.uid) == "")
      && (r.value.uid.Some? ==> r.value.uid.value == Trim(body.uid))
      && r.value.props == PropsOf(body.props)
      && r.value.ip == ClientIp(h)
  {
    var name := Trim(body.name);
    if name == "" then None
    else
      var category := if body.category == "" then DefaultCategory else ToLower(body.category);
      Some(EventRecord(name, category, NonEmpty(Trim(body.uid)), PropsOf(body.props), ClientIp(h), NonEmpty(h.userAgent)))
  }

  /** The handler for every method but GET: `OPTIONS` is answered by the preflight, any
      other method but POST is a 405, a non-object body or an empty name is a 400; otherwise
      the normalised record is inserted. */
  function Post(verb: string, body: Option<EventBody>, h: Headers, insert: InsertOutcome): (r: PostReply)
    requires verb != "GET"
    ensures verb == "OPTIONS" ==> r == Preflight
    ensures verb != "POST" && verb != "OPTIONS" ==> r == PostRejected(405)
    ensures verb == "POST" && body.None? ==> r == PostRejected(400)
    ensures verb == "POST" && body.Some? && Trim(body.value.name) == "" ==> r == PostRejected(400)
    ensures r.Stored? <==> verb == "POST" && body.Some? && Trim(body.value.name) != "" && insert.InsertOk?
    ensures r.Stored? ==> Normalize(body.value, h) == Some(r.record)
  {
    if verb == "OPTIONS" then Preflight
    else if verb != "POST" then PostRejected(405)
    else match body
      case None => PostRejected(400)
      case Some(b) =>
        match Normalize(b, h)
        case None => PostRejected(400)
        case Some(rec) =>
          match insert
          case InsertOk => Stored(rec)
          case InsertFailed(bad) => PostRejected(if bad then 400 else 500)
  }

  /** Normalising an already normalised event changes nothing in its name, category or
      uid. */
  lemma RenormalizingChangesNothing(body: EventBody, h: Headers)
    requires Trim(body.name) != ""
    ensures var rec := Normalize(body, h).value;
      var again := Normalize(EventBody(rec.name, rec.category, rec.uid.GetOr(""), body.props), h);
      again.Some? && again.value.name == rec.name && again.value.category == rec.category
      && again.value.uid == rec.uid
  {
    var rec := Normalize(body, h).value;
    NormalizedFieldsAreFixed(body, h);
    FixedFieldsRenormalize(rec, body.props, h);
  }

  /** The name, category and uid of a normalised record are each in normal form. */
  lemma NormalizedFieldsAreFixed(body: EventBody, h: Headers)
    requires Trim(body.name) != ""
    ensures var rec := Normalize(body, h).value;
      && rec.name != "" && Trim(rec.name) == rec.name
      && rec.category != "" && ToLower(rec.category) == rec.category
      && NonEmpty(Trim(rec.uid.GetOr(""))) == rec.uid
  {
    var rec := Normalize(body, h).value;
    assert rec.name == Trim(body.name);
    assert rec.category == if body.category == "" then DefaultCategory else ToLower(body.category);
    assert rec.uid == NonEmpty(Trim(body.uid));
    TrimIdempotent(body.name);
    NormalizedCategoryIsFixed(body.category);
    NormalizedUidIsFixed(body.uid);
  }

  /** A record whose name, category and uid are each already in normal form normalises to
      the same three fields. */
  lemma FixedFieldsRenormalize(rec: EventRecord, props: Json, h: Headers)
    requires rec.name != "" && Trim(rec.name) == rec.name
    requires rec.category != "" && ToLower(rec.category) == rec.category
    requires NonEmpty(Trim(rec.uid.GetOr(""))) == rec.uid
    ensures var again := Normalize(EventBody(rec.name, rec.category, rec.uid.GetOr(""), props), h);
      again.Some? && again.value.name == rec.name && again.value.category == rec.category
      && again.value.uid == rec.uid
  {
    var again := Normalize(EventBody(rec.name, rec.category, rec.uid.GetOr(""), props), h);
    assert again.Some?;
    assert again.value.name == Trim(rec.name);
    assert again.value.category == ToLower(rec.category);
    assert again.value.uid == NonEmpty(Trim(rec.uid.GetOr("")));
  }

  /** A normalised category is non-empty and already lower-case. */
  lemma NormalizedCategoryIsFixed(c: string)
    ensures var n := if c == "" then DefaultCategory else ToLower(c);
      n != "" && ToLower(n) == n
  {
    if c == "" {
      DefaultCategoryIsLowerCase();
    } else {
      ToLowerFixesLowerCase(ToLower(c));
    }
  }

  /** A normalised uid normalises to itself. */
  lemma NormalizedUidIsFixed(u: string)
    ensures var n := NonEmpty(Trim(u));
      NonEmpty(Trim(n.GetOr(""))) == n
  {
    if Trim(u) != "" {
      TrimIdempotent(u);
    } else {
      assert AllWhite("");
    }
  }

  lemma DefaultCategoryIsLowerCase()
    ensures ToLower(DefaultCategory) == DefaultCategory
  {
    ToLowerFixesLowerCase(DefaultCategory);
  }

}

=== FILE: http.dfy ===
/** The responses of the wallet handlers that change the store: a status code and the kind
    of JSON body sent with it (message texts are not modelled). */
module Http {

  datatype Body =
    | NoContent                        // `res.status(..).end()`
    | Failure                          // `{ success: false, mensagem }`
    | Deposited(saldo: int)            // applyDeposit: credit applied, new balance
    | AlreadyProcessed                 // applyDeposit: deposit already completed
    | Ignored                          // webhook / POST: event acknowledged, nothing done
    | AlreadyCompleted                 // webhook: another call completed the row
    | Succeeded                        // `{ success: true }`
    | Recorded(saldo: int, id: nat)    // transacoes POST: balance and inserted row id
    | Created(id: nat)                 // create-transaction: inserted row id

  datatype Response = Response(code: int, body: Body)
}

=== FILE: idempotency.dfy ===
/** How the deposit handlers behave together when the same deposit is reported more than
    once: by the client's confirmation, by the provider's notification, and by retries of
    either. Sequential runs credit at most once; the interleavings below show where the
    read-then-write steps let a second credit (or a lost update) through. */
module Idempotency {
  import opened Common
  import opened Ledger
  import opened Http
  import AD = ApplyDeposit
  import WH = Webhook
  import TX = Transacoes
  import Text

  /** One request to one of the two deposit handlers, with the store calls that fail. */
  datatype Call =
    | Confirm(confirmation: AD.Request, confirmFaults: Faults)
    | Notify(notification: WH.Request, notifyFaults: Faults)

  function Apply(s: Store, c: Call): Step<Response> {
    match c
    case Confirm(req, f) => AD.Handle(s, req, f)
    case Notify(req, f) => WH.Handle(s, req, f)
  }

  /** The call is about the deposit of external id `e`. */
  predicate Targets(c: Call, e: string) {
    match c
    case Confirm(req, _) => req.externalId == e
    case Notify(req, _) => WH.ResolveId(WH.Payload(req)) == Some(e)
  }

  /** The store after running `calls` one after the other. */
  function Run(s: Store, calls: seq<Call>): Store
    decreases |calls|
  {
    if |calls| == 0 then s else Run(Apply(s, calls[0]).next, calls[1..])
  }

  /** How many of `calls` changed a balance. */
  function Credits(s: Store, calls: seq<Call>): nat
    decreases |calls|
  {
    if |calls| == 0 then 0
    else
      var st := Apply(s, calls[0]);
      (if st.next.users != s.users then 1 else 0) + Credits(st.next, calls[1..])
  }

  /** A call that changes anything leaves its deposit settled. */
  lemma StepSettlesOrLeavesUnchanged(s: Store, c: Call, e: string)
    requires Targets(c, e)
    ensures Apply(s, c).next == s || Settled(Apply(s, c).next, e)
  {
    match c
    case Confirm(req, f) => AD.HandleSettlesOrLeavesUnchanged(s, req, f);
    case Notify(req, f) => WH.HandleSettlesOrLeavesUnchanged(s, req, f);
  }

  /** From a settled deposit, no sequence of calls for it changes the store. */
  lemma {:induction false} SettledIsFrozen(s: Store, calls: seq<Call>, e: string)
    requires Settled(s, e)
    requires forall i :: 0 <= i < |calls| ==> Targets(calls[i], e)
    ensures Run(s, calls) == s && Credits(s, calls) == 0
    decreases |calls|
  {
    if |calls| > 0 {
      match calls[0] {
        case Confirm(req, f) => AD.SettledIsNoop(s, req, f);
        case Notify(req, f) => WH.SettledIsNoop(s, req, f, e);
      }
      SettledIsFrozen(s, calls[1..], e);
    }
  }

  /** Any sequence of confirmations and notifications of one deposit, with any store
      failures, credits a balance at most once. */
  lemma {:induction false} AtMostOneCredit(s: Store, calls: seq<Call>, e: string)
    requires forall i :: 0 <= i < |calls| ==> Targets(calls[i], e)
    ensures Credits(s, calls) <= 1
    decreases |calls|
  {
    if |calls| > 0 {
      var st := Apply(s, calls[0]);
      if st.next.users != s.users {
        StepSettlesOrLeavesUnchanged(s, calls[0], e);
        SettledIsFrozen(st.next, calls[1..], e);
      } else {
        AtMostOneCredit(st.next, calls[1..], e);
      }
    }
  }

  /** The same runs never produce a second deposit row for the external id. */
  lemma {:induction false} NoSecondDepositRow(s: Store, calls: seq<Call>, e: string)
    requires forall i :: 0 <= i < |calls| ==> Targets(calls[i], e)
    requires !FindDeposit(s.rows, e).ManyRows?
    ensures !FindDeposit(Run(s, calls).rows, e).ManyRows?
    decreases |calls|
  {
    if |calls| > 0 {
      StepSettlesOrLeavesUnchanged(s, calls[0], e);
      NoSecondDepositRow(Apply(s, calls[0]).next, calls[1..], e);
    }
  }

  /** The end-to-end scenario: a pending deposit of `v` cents for user `u`, confirmed by the
      provider and by the client in either order with no store failure, raises `u`'s balance
      by exactly `v` and leaves exactly one completed deposit row. */
  lemma BothConfirmationsCreditOnce(s: Store, e: string, u: string, v: int, note: WH.Request)
    requires FindDeposit(s.rows, e).OneRow?
    requires var row := s.rows[FindDeposit(s.rows, e).id];
      row.status != Completed && row.usuarioId == u && row.valor == v
    requires u in s.users && u != "" && e != "" && v > 0
    requires note.verb == "POST" && WH.IsConfirmed(WH.Payload(note)) && WH.ResolveId(WH.Payload(note)) == Some(e)
    ensures var confirm := AD.Request("POST", u, e, Some(v));
      var s1 := WH.Handle(s, note, {}).next;
      var s2 := AD.Handle(s1, confirm, {}).next;
      Balance(s2, u) == Balance(s, u) + v && Settled(s2, e)
    ensures var confirm := AD.Request("POST", u, e, Some(v));
      var s1 := AD.Handle(s, confirm, {}).next;
      var s2 := WH.Handle(s1, note, {}).next;
      Balance(s2, u) == Balance(s, u) + v && Settled(s2, e)
  {
    var confirm := AD.Request("POST", u, e, Some(v));
    var k := FindDeposit(s.rows, e).id;
    // provider first
    var s1 := WH.Handle(s, note, {}).next;
    WH.HandleSettlesOrLeavesUnchanged(s, note, {});
    assert s1.users != s.users;
    AD.SettledIsNoop(s1, confirm, {});
    // client first
    assert AD.Check(s, confirm, {}) == AD.Promote(k);
    var t1 := AD.Handle(s, confirm, {}).next;
    AD.HandleSettlesOrLeavesUnchanged(s, confirm, {});
    assert t1.users != s.users;
    WH.SettledIsNoop(t1, note, {}, e);
  }

  // ---------------------------------------------------------------------------------------
  // Interleavings of the read and write steps

  /** The conditional update is exclusive: once one caller has won the claim on a row, a
      second attempt on the resulting store cannot win. */
  lemma CompareAndSetIsExclusive(s: Store, id: nat, fa: Faults, fb: Faults)
    requires WH.CompareAndSet(s, id, fa).CasWon?
    ensures !WH.CompareAndSet(WH.CompareAndSet(s, id, fa).next, id, fb).CasWon?
  {
  }

  /** Two notifications that both read the pending row before either claims it: the first
      claim wins and credits, the second loses and credits nothing. */
  function RacingNotifications(s: Store, a: WH.Request, b: WH.Request): Store {
    var pa, pb := WH.Locate(s, a, {}), WH.Locate(s, b, {});
    if !pa.Target? || !pb.Target? then s
    else
      var ca := WH.CompareAndSet(s, pa.id, {});
      if !ca.CasWon? then s
      else
        var s2 := WH.Credit(ca.next, pa.row, {}).next;
        var cb := WH.CompareAndSet(s2, pb.id, {});
        if cb.CasWon? then WH.Credit(cb.next, pb.row, {}).next else s2
  }

  lemma RacingNotificationsCreditOnce(s: Store, a: WH.Request, b: WH.Request, e: string)
    requires a.verb == "POST" && WH.IsConfirmed(WH.Payload(a)) && WH.ResolveId(WH.Payload(a)) == Some(e)
    requires b.verb == "POST" && WH.IsConfirmed(WH.Payload(b)) && WH.ResolveId(WH.Payload(b)) == Some(e)
    requires FindDeposit(s.rows, e).OneRow?
    requires var row := s.rows[FindDeposit(s.rows, e).id];
      row.status != Completed && row.valor > 0 && row.usuarioId in s.users
    ensures var row := s.rows[FindDeposit(s.rows, e).id];
      Balance(RacingNotifications(s, a, b), row.usuarioId) == Balance(s, row.usuarioId) + row.valor
  {
    var k := FindDeposit(s.rows, e).id;
    var s1 := WH.CompareAndSet(s, k, {}).next;
    var s2 := WH.Credit(s1, s.rows[k], {}).next;
    assert s2.rows == s1.rows;
  }

  /** A client confirmation that reads the pending row while a notification is in flight:
      the notification claims and credits, then the confirmation's unconditional promotion
      still succeeds and credits the same deposit a second time. */
  function ConfirmationRacingNotification(s: Store, note: WH.Request, confirm: AD.Request): Store
    requires AD.HasFields(confirm)
  {
    var pn, pc := WH.Locate(s, note, {}), AD.Check(s, confirm, {});
    if !pn.Target? || !pc.Promote? then s
    else
      var cas := WH.CompareAndSet(s, pn.id, {});
      if !cas.CasWon? then s
      else
        var s2 := WH.Credit(cas.next, pn.row, {}).next;
        match AD.Claim(s2, confirm, pc, {})
        case None => s2
        case Some(s3) =>
          match ReadSaldo(s3, confirm.usuarioId, {})
          case None => s3
          case Some(saldo) => WriteSaldo(s3, confirm.usuarioId, saldo + confirm.valor.value, {}).GetOr(s3)
  }

  lemma ConfirmationRacingNotificationCreditsTwice(s: Store, note: WH.Request, e: string, u: string, v: int)
    requires note.verb == "POST" && WH.IsConfirmed(WH.Payload(note)) && WH.ResolveId(WH.Payload(note)) == Some(e)
    requires FindDeposit(s.rows, e).OneRow?
    requires var row := s.rows[FindDeposit(s.rows, e).id];
      row.status != Completed && row.valor == v && row.usuarioId == u
    requires v > 0 && u in s.users && u != "" && e != ""
    ensures Balance(ConfirmationRacingNotification(s, note, AD.Request("POST", u, e, Some(v))), u)
            == Balance(s, u) + 2 * v
  {
    var k := FindDeposit(s.rows, e).id;
    var confirm := AD.Request("POST", u, e, Some(v));
    assert AD.Check(s, confirm, {}) == AD.Promote(k);
    var s1 := WH.CompareAndSet(s, k, {}).next;
    var s2 := WH.Credit(s1, s.rows[k], {}).next;
    assert Balance(s2, u) == Balance(s, u) + v;
    var s3 := AD.Claim(s2, confirm, AD.Promote(k), {}).value;
    assert s3.users == s2.users;
  }

  /** Two POSTs for the same user that both read the balance before either writes it: both
      rows are recorded, but the second write overwrites the first, so the first amount is
      lost from the balance. */
  function RacingPosts(s: Store, a: TX.PostRequest, b: TX.PostRequest): Store
    requires a.verb != "GET" && b.verb != "GET"
  {
    var pa := TX.Prepare(s, a, {});
    var pb := TX.Prepare(s, b, {});
    if pa.Apply? && pb.Apply? then
      var s1 := TX.Commit(s, a, pa, {}).next;
      TX.Commit(s1, b, pb, {}).next
    else s
  }

  lemma RacingPostsLoseAnUpdate(s: Store, a: TX.PostRequest, b: TX.PostRequest)
    requires a.verb != "GET" && b.verb != "GET"
    requires TX.Prepare(s, a, {}).Apply? && TX.Prepare(s, b, {}).Apply?
    requires a.usuarioId == b.usuarioId
    ensures var s2 := RacingPosts(s, a, b);
      && |s2.rows| == |s.rows| + 2
      && Balance(s2, b.usuarioId) == Balance(s, b.usuarioId) + TX.Delta(TX.Prepare(s, b, {}).kind, b.valor.value)
  {
  }

  /** The POST stores a deposit's status exactly as sent, so a deposit accepted as
      `COMPLETED` is recorded with a status the deposit guard does not recognise as
      completed: a notification for the same external id then credits it a second time. */
  lemma UppercaseStatusEscapesGuard(s: Store, post: TX.PostRequest, note: WH.Request, e: string)
    requires post.verb == "POST" && post.usuarioId != "" && post.usuarioId in s.users && post.valor.Some?
    requires post.valor.value != 0
    requires post.tipo == Deposit && post.status == Some("COMPLETED") && post.externalId == Some(e)
    requires FindDeposit(s.rows, e).NoRow?
    requires note.verb == "POST" && WH.IsConfirmed(WH.Payload(note)) && WH.ResolveId(WH.Payload(note)) == Some(e)
    ensures var s1 := TX.Post(s, post, {}).next;
      var s2 := WH.Handle(s1, note, {}).next;
      Balance(s2, post.usuarioId) == Balance(s, post.usuarioId) + 2 * Abs(post.valor.value)
  {
    var s1 := TX.Post(s, post, {}).next;
    var row := TX.RowOf(post, Deposit);
    UppercaseDepositIsRecorded(s, post);
    FindDepositAfterFirstInsert(s.rows, row, e);
    NotificationCreditsRecordedRow(s1, note, e, |s.rows|);
  }

  /** The first half: the POST accepts the deposit, records its row with the status as sent
      and credits the balance. */
  lemma UppercaseDepositIsRecorded(s: Store, post: TX.PostRequest)
    requires post.verb == "POST" && post.usuarioId != "" && post.usuarioId in s.users && post.valor.Some?
    requires post.tipo == Deposit && post.status == Some("COMPLETED")
    ensures var s1 := TX.Post(s, post, {}).next;
      && s1.rows == s.rows + [TX.RowOf(post, Deposit)]
      && Balance(s1, post.usuarioId) == Balance(s, post.usuarioId) + Abs(post.valor.value)
  {
    assert Text.ToLower("COMPLETED") == Completed;
    assert Text.ToLower(Deposit) == Deposit;
    assert TX.Prepare(s, post, {}) == TX.Apply(Deposit, Balance(s, post.usuarioId));
  }

  /** The second half: a notification for a deposit row whose status is not exactly
      `completed` credits its amount. */
  lemma NotificationCreditsRecordedRow(s: Store, note: WH.Request, e: string, k: nat)
    requires note.verb == "POST" && WH.IsConfirmed(WH.Payload(note)) && WH.ResolveId(WH.Payload(note)) == Some(e)
    requires FindDeposit(s.rows, e) == OneRow(k)
    requires s.rows[k].status != Completed && s.rows[k].valor > 0 && s.rows[k].usuarioId in s.users
    ensures Balance(WH.Handle(s, note, {}).next, s.rows[k].usuarioId) == Balance(s, s.rows[k].usuarioId) + s.rows[k].valor
  {
    var c := WH.CompareAndSet(s, k, {});
    assert c.CasWon?;
  }
}

=== FILE: ledger.dfy ===
/** The two tables every wallet handler reads and writes: `transacoes` (the ledger rows) and
    the `saldo` column of `usuarios` (the balances), with the single-row store operations the
    handlers use. A row's id is its position in `rows`, which is also its insertion order. */
module Ledger {
  import opened Common

  const Deposit := "deposit"
  const Bet := "bet"
  const Win := "win"
  const Withdraw := "withdraw"
  const Completed := "completed"
  const Pending := "pending"

  /** A `transacoes` row. `valor` is an amount in cents; `status` and `tipo` are stored as
      the handlers wrote them, so they are plain strings. */
  datatype Row = Row(
    usuarioId: string,
    valor: int,
    tipo: string,
    status: string,
    externalId: Option<string>,
    descricao: Option<string>)

  /** The persistent state: ledger rows and, per user id that exists, its `saldo` column
      (`None` when the column is null). */
  datatype Store = Store(rows: seq<Row>, users: map<string, Option<int>>)

  /** The store calls a handler issues; a handler is given the set of calls that fail. */
  datatype StoreCall =
    | SelectDeposit     // lookup of the deposit row by external id
    | UpdateDeposit     // status update of that row
    | InsertTransaction // insert into `transacoes`
    | SelectUser        // read of `usuarios.saldo`
    | UpdateBalance     // write of `usuarios.saldo`
    | RestoreBalance    // compensating write of `usuarios.saldo`
    | SelectList        // a listing query

  type Faults = set<StoreCall>

  /** The result of a handler: the HTTP response and the store it leaves behind. */
  datatype Step<R> = Step(resp: R, next: Store)

  /** `Number(saldo || 0)`: the balance a handler reads; a missing user reads as 0 here. */
  function Balance(s: Store, u: string): int {
    if u in s.users then s.users[u].GetOr(0) else 0
  }

  /** Reads a user's balance with `.single()`: `None` when the read fails or the user does
      not exist, otherwise the balance with a null `saldo` read as 0. */
  function ReadSaldo(s: Store, u: string, faults: Faults): (r: Option<int>)
    ensures r.Some? <==> SelectUser !in faults && u in s.users
    ensures r.Some? ==> r.value == Balance(s, u)
  {
    if SelectUser in faults || u !in s.users then None else Some(s.users[u].GetOr(0))
  }

  /** `update({saldo: v}).eq('id', u)`: `None` when the write fails; an update matching no
      user changes nothing. */
  function WriteSaldo(s: Store, u: string, v: int, faults: Faults): (r: Option<Store>)
    ensures r.Some? <==> UpdateBalance !in faults
    ensures r.Some? ==> r.value.rows == s.rows
    ensures r.Some? && u in s.users ==> Balance(r.value, u) == v
    ensures r.Some? ==> forall w :: w != u ==> Balance(r.value, w) == Balance(s, w)
    ensures r.Some? && u !in s.users ==> r.value == s
  {
    if UpdateBalance in faults then None
    else if u in s.users then Some(s.(users := s.users[u := Some(v)]))
    else Some(s)
  }

  /** The indices of the rows `keep` selects, in ascending (insertion) order. */
  function Select(rows: seq<Row>, keep: Row -> bool): (ids: seq<nat>)
    ensures forall j :: 0 <= j < |ids| ==> ids[j] < |rows| && keep(rows[ids[j]])
    ensures forall k :: 0 <= k < |rows| && keep(rows[k]) ==> k in ids
    ensures forall i, j :: 0 <= i < j < |ids| ==> ids[i] < ids[j]
  {
    if |rows| == 0 then []
    else
      var prefix := Select(rows[..|rows| - 1], keep);
      if keep(rows[|rows| - 1]) then prefix + [|rows| - 1] else prefix
  }

  /** The filter `.eq('external_id', e).eq('tipo', 'deposit')`. */
  predicate IsDepositFor(r: Row, e: string) {
    r.externalId == Some(e) && r.tipo == Deposit
  }

  /** What a single-row lookup can see: no row, exactly one, or several. */
  datatype Lookup = NoRow | OneRow(id: nat) | ManyRows

  /** The ids of the deposit rows of external id `e`, ascending. */
  function DepositIds(rows: seq<Row>, e: string): seq<nat> {
    Select(rows, r => IsDepositFor(r, e))
  }

  /** Looks up the deposit row of external id `e`. */
  function FindDeposit(rows: seq<Row>, e: string): (l: Lookup)
    ensures l.NoRow? <==> forall k :: 0 <= k < |rows| ==> !IsDepositFor(rows[k], e)
    ensures l.OneRow? ==> l.id < |rows| && IsDepositFor(rows[l.id], e)
    ensures l.OneRow? ==> forall k :: 0 <= k < |rows| && IsDepositFor(rows[k], e) ==> k == l.id
    ensures l.ManyRows? <==>
      exists i, j :: 0 <= i < j < |rows| && IsDepositFor(rows[i], e) && IsDepositFor(rows[j], e)
  {
    var ids := DepositIds(rows, e);
    if |ids| == 0 then NoRow
    else if |ids| == 1 then OneRow(ids[0])
    else
      assert ids[0] < ids[1];
      ManyRows
  }

  /** Replacing a row by one the filter treats alike leaves the selected ids unchanged. */
  lemma {:induction false} DepositIdsAfterUpdate(rows: seq<Row>, i: nat, r: Row, e: string)
    requires i < |rows|
    requires IsDepositFor(r, e) == IsDepositFor(rows[i], e)
    ensures DepositIds(rows[i := r], e) == DepositIds(rows, e)
  {
    var n := |rows| - 1;
    var rows' := rows[i := r];
    if i == n {
      assert rows'[..n] == rows[..n];
    } else {
      assert rows'[..n] == rows[..n][i := r];
      DepositIdsAfterUpdate(rows[..n], i, r, e);
    }
  }

  /** Updating a row in a way that keeps its membership in the filter keeps the lookup's
      answer. */
  lemma FindDepositAfterUpdate(rows: seq<Row>, i: nat, r: Row, e: string)
    requires i < |rows|
    requires IsDepositFor(r, e) == IsDepositFor(rows[i], e)
    ensures FindDeposit(rows[i := r], e) == FindDeposit(rows, e)
  {
    DepositIdsAfterUpdate(rows, i, r, e);
  }

  /** Appending a matching row where there was none makes it the one match. */
  lemma FindDepositAfterFirstInsert(rows: seq<Row>, r: Row, e: string)
    requires FindDeposit(rows, e) == NoRow
    requires IsDepositFor(r, e)
    ensures FindDeposit(rows + [r], e) == OneRow(|rows|)
  {
    assert (rows + [r])[..|rows|] == rows;
  }

  /** Appending a row that does not match leaves the lookup's answer unchanged. */
  lemma FindDepositAfterOtherInsert(rows: seq<Row>, r: Row, e: string)
    requires !IsDepositFor(r, e)
    ensures FindDeposit(rows + [r], e) == FindDeposit(rows, e)
  {
    assert (rows + [r])[..|rows|] == rows;
  }

  /** A deposit is settled when exactly one deposit row carries its external id and that row
      is `completed`: the state after which no further credit may happen. */
  predicate Settled(s: Store, e: string) {
    var l := FindDeposit(s.rows, e);
    l.OneRow? && s.rows[l.id].status == Completed
  }

  // ---------------------------------------------------------------------------------------
  // Reconciliation: a balance against the signed amounts of the user's completed rows.

  /** The signed effect of a row on its owner's balance: deposits and wins add, bets and
      withdrawals subtract, and a row of any other kind has no effect. */
  function SignedAmount(r: Row): int {
    if r.tipo == Deposit || r.tipo == Win then r.valor
    else if r.tipo == Bet || r.tipo == Withdraw then -r.valor
    else 0
  }

  /** What row `r` contributes to user `u`'s ledger total: its signed amount when it is
      `u`'s and `completed`, else nothing. */
  function Effect(r: Row, u: string): int {
    if r.usuarioId == u && r.status == Completed then SignedAmount(r) else 0
  }

  /** The sum of the effects of all rows on user `u`. */
  function LedgerSum(rows: seq<Row>, u: string): int {
    if |rows| == 0 then 0 else LedgerSum(rows[..|rows| - 1], u) + Effect(rows[|rows| - 1], u)
  }

  /** The reconciliation invariant for one user: the balance equals the ledger total. */
  predicate Reconciled(s: Store, u: string) {
    Balance(s, u) == LedgerSum(s.rows, u)
  }

  /** Appending a row adds exactly its effect to every user's ledger total. */
  lemma LedgerSumAppend(rows: seq<Row>, r: Row, u: string)
    ensures LedgerSum(rows + [r], u) == LedgerSum(rows, u) + Effect(r, u)
  {
    assert (rows + [r])[..|rows|] == rows;
  }

  /** Replacing row `i` changes every user's ledger total by the difference of the two
      rows' effects and by nothing else. */
  lemma {:induction false} LedgerSumUpdate(rows: seq<Row>, i: nat, r: Row, u: string)
    requires i < |rows|
    ensures LedgerSum(rows[i := r], u) == LedgerSum(rows, u) - Effect(rows[i], u) + Effect(r, u)
  {
    var n := |rows| - 1;
    var rows' := rows[i := r];
    if i == n {
      assert rows'[..n] == rows[..n];
    } else {
      assert rows'[..n] == rows[..n][i := r];
      LedgerSumUpdate(rows[..n], i, r, u);
    }
  }
}

=== FILE: pagination.dfy ===
/** Page arithmetic shared by the listing handlers: clamping the requested page and page
    size, the 0-based inclusive row window handed to the store's `range(from, to)`, and the
    page count reported back. Inputs are the already-parsed integers. */
module Pagination {
  import opened Common

  /** `Math.max(1, page)`: pages are numbered from 1. */
  function ClampPage(raw: int): (p: int)
    ensures p >= 1
    ensures raw >= 1 ==> p == raw
    ensures raw < 1 ==> p == 1
  {
    Max(1, raw)
  }

  /** `Math.min(limit, Math.max(1, size))`: a page holds between 1 and `limit` rows. */
  function ClampSize(raw: int, limit: int): (ps: int)
    requires limit >= 1
    ensures 1 <= ps <= limit
    ensures 1 <= raw <= limit ==> ps == raw
    ensures raw < 1 ==> ps == 1
    ensures raw > limit ==> ps == limit
  {
    Min(limit, Max(1, raw))
  }

  /** An inclusive, 0-based row window `range(first, last)`. */
  datatype Window = Window(first: int, last: int)

  /** The window of page `page` when pages hold `size` rows. */
  function RangeOf(page: int, size: int): (w: Window)
    requires page >= 1 && size >= 1
    ensures w.first >= 0
    ensures w.last - w.first + 1 == size
  {
    var first := (page - 1) * size;
    Window(first, first + size - 1)
  }

  /** Row `i` lies in the window of exactly one page: page `i / size + 1`. */
  lemma RangeOfContains(page: int, size: int, i: int)
    requires page >= 1 && size >= 1 && i >= 0
    ensures RangeOf(page, size).first <= i <= RangeOf(page, size).last <==> page == i / size + 1
  {
    var q := i / size;
    assert q * size <= i < q * size + size;
    if page <= q {
      assert (page - 1) * size + size <= q * size by {
        MulMonotone(page, q, size);
      }
    } else if page >= q + 2 {
      assert (q + 1) * size <= (page - 1) * size by {
        MulMonotone(q + 1, page - 1, size);
      }
    }
  }

  lemma MulMonotone(a: int, b: int, n: int)
    requires a <= b && n >= 0
    ensures a * n <= b * n
  {
  }

  /** `Math.ceil(total / size)` on non-negative integers. */
  function CeilDiv(total: nat, size: int): nat
    requires size >= 1
  {
    (total + size - 1) / size
  }

  /** `Math.max(1, Math.ceil(total / size))`: the least page count, at least 1, whose pages
      hold `total` rows. */
  function TotalPages(total: nat, size: int): (n: int)
    requires size >= 1
    ensures n >= 1
    ensures total <= n * size
    ensures n == 1 || (n - 1) * size < total
  {
    var c := CeilDiv(total, size);
    assert c * size <= total + size - 1 < c * size + size;
    Max(1, c)
  }

  /** The rows a `range(w.first, w.last)` query returns from an ordered result `items`:
      a window past the end yields fewer rows, or none. */
  function Slice<T>(items: seq<T>, w: Window): (r: seq<T>)
    requires 0 <= w.first
    ensures |r| <= Max(0, w.last - w.first + 1)
  {
    var lo := Min(w.first, |items|);
    var hi := Max(lo, Min(w.last + 1, |items|));
    items[lo..hi]
  }

  /** The rows of a window are consecutive rows of the result, starting at the window's first
      row (or at the end of the result when the window starts past it). */
  lemma SliceElements<T>(items: seq<T>, w: Window)
    requires 0 <= w.first
    ensures forall j :: 0 <= j < |Slice(items, w)| ==>
      Min(w.first, |items|) + j < |items| && Slice(items, w)[j] == items[Min(w.first, |items|) + j]
  {
  }

  /** Pages 1 to `n`, concatenated. */
  function FirstPages<T>(items: seq<T>, size: int, n: nat): seq<T>
    requires size >= 1
  {
    if n == 0 then [] else FirstPages(items, size, n - 1) + Slice(items, RangeOf(n, size))
  }

  /** Reading pages 1 to `n` in turn returns the first `n * size` rows, in order, with no row
      missed or repeated. */
  lemma {:induction false} FirstPagesArePrefix<T>(items: seq<T>, size: int, n: nat)
    requires size >= 1
    ensures FirstPages(items, size, n) == items[..Min(n * size, |items|)]
  {
    if n > 0 {
      FirstPagesArePrefix(items, size, n - 1);
      MulMonotone(n - 1, n, size);
      assert (n - 1) * size + size == n * size;
      var lo := Min((n - 1) * size, |items|);
      var hi := Min(n * size, |items|);
      assert items[..lo] + items[lo..hi] == items[..hi];
    }
  }

  /** Reading every page from 1 to `TotalPages` returns the whole result exactly once. */
  lemma AllPagesCoverResult<T>(items: seq<T>, size: int)
    requires size >= 1
    ensures FirstPages(items, size, TotalPages(|items|, size)) == items
  {
    FirstPagesArePrefix(items, size, TotalPages(|items|, size));
  }

  /** A page past `TotalPages` is empty, and when there are rows every page up to
      `TotalPages` holds at least one. */
  lemma PagesBeyondTotalAreEmpty<T>(items: seq<T>, size: int, page: int)
    requires size >= 1 && page >= 1
    ensures page > TotalPages(|items|, size) ==> Slice(items, RangeOf(page, size)) == []
    ensures page <= TotalPages(|items|, size) && |items| > 0 ==> Slice(items, RangeOf(page, size)) != []
  {
    var n := TotalPages(|items|, size);
    if page > n {
      MulMonotone(n, page - 1, size);
    } else if |items| > 0 {
      MulMonotone(page - 1, n - 1, size);
    }
  }
}

=== FILE: reconciliation.dfy ===
/** The reconciliation invariant across the deposit handlers: a user's balance equals the
    signed sum of that user's completed ledger rows. A completed credit keeps it; the paths
    that complete a row without crediting its owner break it. */
module Reconciliation {
  import opened Ledger
  import AD = ApplyDeposit
  import WH = Webhook

  /** A confirmation that credits keeps every user reconciled, provided the row it completes
      is the requester's own (a fresh row always is). */
  lemma ConfirmationKeepsReconciled(s: Store, req: AD.Request, faults: Faults, w: string)
    requires Reconciled(s, w)
    requires AD.Handle(s, req, faults).resp.body.Deposited?
    requires var p := AD.Check(s, req, faults); p.Promote? ==> s.rows[p.id].usuarioId == req.usuarioId
    ensures Reconciled(AD.Handle(s, req, faults).next, w)
  {
    var p := AD.Check(s, req, faults);
    var s1 := AD.Claim(s, req, p, faults).value;
    if p.Promote? {
      LedgerSumUpdate(s.rows, p.id, s.rows[p.id].(status := Completed, valor := req.valor.value), w);
    } else {
      LedgerSumAppend(s.rows, AD.NewRow(req), w);
    }
  }

  /** The promotion does not check whose row it completes: confirming another user's pending
      deposit credits the requester while the ledger counts the amount for the row's owner,
      so neither stays reconciled. */
  lemma ConfirmationOfAnotherUsersRow(s: Store, req: AD.Request, faults: Faults)
    requires Reconciled(s, req.usuarioId)
    requires AD.Handle(s, req, faults).resp.body.Deposited?
    requires var p := AD.Check(s, req, faults); p.Promote? && s.rows[p.id].usuarioId != req.usuarioId
    ensures !Reconciled(AD.Handle(s, req, faults).next, req.usuarioId)
    ensures var owner := s.rows[AD.Check(s, req, faults).id].usuarioId;
      Reconciled(s, owner) ==> !Reconciled(AD.Handle(s, req, faults).next, owner)
  {
    var p := AD.Check(s, req, faults);
    var row := s.rows[p.id];
    var promoted := row.(status := Completed, valor := req.valor.value);
    LedgerSumUpdate(s.rows, p.id, promoted, req.usuarioId);
    LedgerSumUpdate(s.rows, p.id, promoted, row.usuarioId);
    assert Effect(row, row.usuarioId) == 0 && Effect(promoted, row.usuarioId) == req.valor.value;
  }

  /** When the user row is missing, the ledger completes the deposit but no balance moves:
      the user's ledger total grows by the deposit while the balance does not. */
  lemma MissingUserBreaksReconciliation(s: Store, req: AD.Request, faults: Faults)
    requires Reconciled(s, req.usuarioId) && req.usuarioId !in s.users
    requires AD.Check(s, req, faults).InsertNew?
    requires InsertTransaction !in faults
    ensures AD.Handle(s, req, faults).resp.code == 404
    ensures !Reconciled(AD.Handle(s, req, faults).next, req.usuarioId)
  {
    LedgerSumAppend(s.rows, AD.NewRow(req), req.usuarioId);
  }

  /** A notification that credits keeps every user reconciled. */
  lemma NotificationKeepsReconciled(s: Store, req: WH.Request, faults: Faults, w: string)
    requires Reconciled(s, w)
    requires WH.Handle(s, req, faults).next.users != s.users
    ensures Reconciled(WH.Handle(s, req, faults).next, w)
  {
    var p := WH.Locate(s, req, faults);
    LedgerSumUpdate(s.rows, p.id, s.rows[p.id].(status := Completed), w);
  }

  /** A notification whose balance write fails leaves the row completed and the balance
      untouched: the owner's ledger total moves by the deposit and the balance does not. */
  lemma FailedNotificationCreditBreaksReconciliation(s: Store, req: WH.Request, faults: Faults)
    requires WH.Locate(s, req, faults).Target?
    requires var p := WH.Locate(s, req, faults);
      s.rows[p.id].status != Completed && s.rows[p.id].valor > 0 && Reconciled(s, s.rows[p.id].usuarioId)
    requires UpdateDeposit !in faults && UpdateBalance in faults
    ensures var p := WH.Locate(s, req, faults);
      !Reconciled(WH.Handle(s, req, faults).next, s.rows[p.id].usuarioId)
  {
    var p := WH.Locate(s, req, faults);
    LedgerSumUpdate(s.rows, p.id, s.rows[p.id].(status := Completed), s.rows[p.id].usuarioId);
  }
}

=== FILE: text.dfy ===
/** The string operations the handlers apply to request fields: trimming, case mapping and
    taking the first comma-separated entry of a header. Case mapping and the whitespace set
    are those of JavaScript restricted to the characters listed here. */
module Text {

  /** Characters removed by `String.prototype.trim` (the common subset of them). */
  predicate IsWhite(c: char) {
    c == ' ' || c == '\t' || c == '\n' || c == '\r' || c == '\U{000B}' || c == '\U{000C}'
    || c == '\U{00A0}' || c == '\U{FEFF}'
  }

  /** Removes leading whitespace: the result is a suffix of `s` that does not start with
      whitespace, and everything cut off is whitespace. */
  function TrimStart(s: string): (r: string)
    ensures |r| <= |s| && r == s[|s| - |r|..]
    ensures r == [] || !IsWhite(r[0])
    ensures forall k :: 0 <= k < |s| - |r| ==> IsWhite(s[k])
  {
    if |s| > 0 && IsWhite(s[0]) then TrimStart(s[1..]) else s
  }

  /** Removes trailing whitespace: the result is a prefix of `s` that does not end with
      whitespace, and everything cut off is whitespace. */
  function TrimEnd(s: string): (r: string)
    ensures |r| <= |s| && r == s[..|r|]
    ensures r == [] || !IsWhite(r[|r| - 1])
    ensures forall k :: |r| <= k < |s| ==> IsWhite(s[k])
  {
    if |s| > 0 && IsWhite(s[|s| - 1]) then TrimEnd(s[..|s| - 1]) else s
  }

  /** Every character of `w` is whitespace. */
  predicate AllWhite(w: string) {
    forall k :: 0 <= k < |w| ==> IsWhite(w[k])
  }

  /** `String.prototype.trim`: the input with its leading and trailing whitespace cut off,
      and nothing else changed. */
  function Trim(s: string): (r: string)
    ensures |r| <= |s|
    ensures r == [] || (!IsWhite(r[0]) && !IsWhite(r[|r| - 1]))
    ensures r == [] <==> AllWhite(s)
    ensures exists lead, trail :: s == lead + r + trail && AllWhite(lead) && AllWhite(trail)
  {
    var a := TrimStart(s);
    var b := TrimEnd(a);
    WindowSplit(s, a, b);
    SplitEmptyIffAllWhite(s, s[..|s| - |a|], b, a[|b|..]);
    b
  }

  /** A suffix `a` of `s` and a prefix `b` of `a`, where what is cut off is whitespace, split
      `s` into leading whitespace, `b` and trailing whitespace. */
  lemma WindowSplit(s: string, a: string, b: string)
    requires |a| <= |s| && a == s[|s| - |a|..]
    requires |b| <= |a| && b == a[..|b|]
    requires forall k :: 0 <= k < |s| - |a| ==> IsWhite(s[k])
    requires forall k :: |b| <= k < |a| ==> IsWhite(a[k])
    ensures s == s[..|s| - |a|] + b + a[|b|..]
    ensures AllWhite(s[..|s| - |a|]) && AllWhite(a[|b|..])
  {
    var i := |s| - |a|;
    assert s == s[..i] + a;
    assert a == b + a[|b|..];
    forall k | 0 <= k < |a| - |b| ensures IsWhite(a[|b|..][k]) {
      assert a[|b|..][k] == a[|b| + k];
    }
  }

  /** For `s == lead + b + trail` with whitespace `lead` and `trail`, and `b` empty or not
      starting with whitespace: `b` is empty exactly when `s` is all whitespace. */
  lemma SplitEmptyIffAllWhite(s: string, lead: string, b: string, trail: string)
    requires s == lead + b + trail && AllWhite(lead) && AllWhite(trail)
    requires b == [] || !IsWhite(b[0])
    ensures b == [] <==> AllWhite(s)
  {
    assert forall k :: 0 <= k < |lead| ==> s[k] == lead[k];
    assert forall k :: 0 <= k < |b| ==> s[|lead| + k] == b[k];
    assert forall k :: 0 <= k < |trail| ==> s[|lead| + |b| + k] == trail[k];
    assert b != [] ==> !IsWhite(s[|lead|]);
    forall k | 0 <= k < |s| && b == [] ensures IsWhite(s[k]) {
      if k >= |lead| {
        assert s[k] == trail[k - |lead|];
      }
    }
  }

  /** Trimming twice is trimming once. */
  lemma TrimIdempotent(s: string)
    ensures Trim(Trim(s)) == Trim(s)
  {
    var t := Trim(s);
    assert TrimStart(t) == t;
    assert TrimEnd(t) == t;
  }

  /** Trimming only removes characters: a character absent from `s` is absent from its
      trimmed form. */
  lemma TrimKeepsAbsentChar(s: string, c: char)
    requires c !in s
    ensures c !in Trim(s)
  {
    var a := TrimStart(s);
    assert c !in a by {
      assert a == s[|s| - |a|..];
    }
    var b := TrimEnd(a);
    assert b == a[..|b|];
  }

  predicate IsUpper(c: char) {
    'A' <= c <= 'Z'
  }

  predicate IsLower(c: char) {
    'a' <= c <= 'z'
  }

  function LowerChar(c: char): char {
    if IsUpper(c) then (c as int - 'A' as int + 'a' as int) as char else c
  }

  function UpperChar(c: char): char {
    if IsLower(c) then (c as int - 'a' as int + 'A' as int) as char else c
  }

  /** `String.prototype.toLowerCase`: same length, no upper-case letter left, every other
      character kept. */
  function ToLower(s: string): (r: string)
    ensures |r| == |s|
    ensures forall i :: 0 <= i < |r| ==> !IsUpper(r[i])
    ensures forall i :: 0 <= i < |r| && !IsUpper(s[i]) ==> r[i] == s[i]
    ensures forall i :: 0 <= i < |s| && IsUpper(s[i]) ==> r[i] as int == s[i] as int + 32
  {
    seq(|s|, i requires 0 <= i < |s| => LowerChar(s[i]))
  }

  /** `String.prototype.toUpperCase`: same length, no lower-case letter left, every other
      character kept. */
  function ToUpper(s: string): (r: string)
    ensures |r| == |s|
    ensures forall i :: 0 <= i < |r| ==> !IsLower(r[i])
    ensures forall i :: 0 <= i < |r| && !IsLower(s[i]) ==> r[i] == s[i]
    ensures forall i :: 0 <= i < |s| && IsLower(s[i]) ==> r[i] as int == s[i] as int - 32
  {
    seq(|s|, i requires 0 <= i < |s| => UpperChar(s[i]))
  }

  /** Lower-casing is idempotent, and a lower-case string is its own lower-case form. */
  lemma ToLowerFixesLowerCase(s: string)
    requires forall i :: 0 <= i < |s| ==> !IsUpper(s[i])
    ensures ToLower(s) == s
  {
  }

  /** `s.split(sep)[0]`: the longest prefix of `s` without `sep`. */
  function FirstField(s: string, sep: char): (r: string)
    ensures r <= s
    ensures sep !in r
    ensures |r| == |s| || s[|r|] == sep
  {
    if |s| == 0 || s[0] == sep then [] else [s[0]] + FirstField(s[1..], sep)
  }
}

=== FILE: transacoes.dfy ===
/** `/api/transacoes`: the generic POST that records a bet, win or deposit and moves the
    balance by the matching signed amount, and the GET that lists a user's rows a page at a
    time.

    The POST is written as a read step `Prepare` (validation and the balance read) and a
    write step `Commit` (balance write, row insert, compensating balance write), so that two
    calls can be interleaved. */
module Transacoes {
  import opened Common
  import opened Text
  import opened Ledger
  import opened Http
  import opened Pagination

  // ---------------------------------------------------------------------------------------
  // POST

  /** A POST body; `""` is a missing or falsy `usuario_id`/`tipo`, `valor` is `None` when it
      is not a number, and `status`, `descricao`, `external_id` are `None` when absent. */
  datatype PostRequest = PostRequest(
    verb: string,
    usuarioId: string,
    valor: Option<int>,
    tipo: string,
    status: Option<string>,
    descricao: Option<string>,
    externalId: Option<string>)

  /** `status = 'completed'` when the field is absent. */
  function StatusOf(req: PostRequest): string {
    req.status.GetOr(Completed)
  }

  /** The kinds the POST accepts, after lower-casing. */
  predicate IsKind(t: string) {
    t == Bet || t == Win || t == Deposit
  }

  /** The balance change of a request of kind `t`: `-|valor|` for a bet, `+|valor|` for a
      win or a deposit. */
  function Delta(t: string, valor: int): (d: int)
    requires IsKind(t)
    ensures t == Bet ==> d <= 0
    ensures t != Bet ==> d >= 0
    ensures Abs(d) == Abs(valor)
  {
    var m: int := Abs(valor);
    if t == Bet then -m else m
  }

  /** The row the POST inserts: the amount is stored as a magnitude, the kind lower-cased,
      the status exactly as sent. */
  function RowOf(req: PostRequest, t: string): (r: Row)
    requires req.valor.Some?
    ensures r.valor >= 0 && r.valor == Abs(req.valor.value)
  {
    Row(req.usuarioId, Abs(req.valor.value), t, StatusOf(req), req.externalId, req.descricao)
  }

  /** What the read step decided: an answer, or the kind and the balance read. */
  datatype Plan = Reject(resp: Response) | Apply(kind: string, saldo: int)

  /** The read step: method, required fields, kind, the deposit status filter, then the
      balance read. */
  function Prepare(s: Store, req: PostRequest, faults: Faults): (p: Plan)
    requires req.verb != "GET"
    ensures p.Apply? ==> req.verb == "POST" && req.usuarioId != "" && req.valor.Some?
                         && IsKind(p.kind) && p.kind == ToLower(req.tipo)
                         && (p.kind == Deposit ==> ToLower(StatusOf(req)) == Completed)
                         && req.usuarioId in s.users && p.saldo == Balance(s, req.usuarioId)
    ensures p.Reject? && p.resp.code == 400 <==>
      req.verb == "POST" && (req.usuarioId == "" || req.valor.None? || req.tipo == "" || !IsKind(ToLower(req.tipo)))
    // a well-formed POST for a user whose balance row cannot be read answers 404
    ensures req.verb == "POST" && req.usuarioId != "" && req.valor.Some? && req.tipo != ""
            && IsKind(ToLower(req.tipo)) && (ToLower(req.tipo) == Deposit ==> ToLower(StatusOf(req)) == Completed)
            && (SelectUser in faults || req.usuarioId !in s.users) ==>
      p == Reject(Response(404, Failure))
  {
    if req.verb == "OPTIONS" then Reject(Response(204, NoContent))
    else if req.verb != "POST" then Reject(Response(405, Failure))
    else if req.usuarioId == "" || req.valor.None? || req.tipo == "" then Reject(Response(400, Failure))
    else
      var t := ToLower(req.tipo);
      if !IsKind(t) then Reject(Response(400, Failure))
      else if t == Deposit && ToLower(StatusOf(req)) != Completed then Reject(Response(200, Ignored))
      else match ReadSaldo(s, req.usuarioId, faults)
        case None => Reject(Response(404, Failure))
        case Some(saldo) => Apply(t, saldo)
  }

  /** The write step: write the new balance first, then insert the row; when the insert
      fails, write the balance read by `Prepare` back (whose own failure is not checked). */
  function Commit(s: Store, req: PostRequest, p: Plan, faults: Faults): (r: Step<Response>)
    requires p.Apply? && IsKind(p.kind) && req.valor.Some?
    ensures r.resp.code == 201 <==> UpdateBalance !in faults && InsertTransaction !in faults
    ensures r.resp.code == 201 ==> r.next.rows == s.rows + [RowOf(req, p.kind)]
    ensures r.resp.code != 201 ==> r.next.rows == s.rows
    // the balance written is the one read plus the delta; a failed insert writes the read one back
    ensures r.resp.code == 201 && req.usuarioId in s.users ==>
      Balance(r.next, req.usuarioId) == p.saldo + Delta(p.kind, req.valor.value)
    ensures UpdateBalance !in faults && InsertTransaction in faults && RestoreBalance !in faults
            && req.usuarioId in s.users ==>
      Balance(r.next, req.usuarioId) == p.saldo
    ensures forall w :: w != req.usuarioId ==> Balance(r.next, w) == Balance(s, w)
  {
    var novo := p.saldo + Delta(p.kind, req.valor.value);
    match WriteSaldo(s, req.usuarioId, novo, faults)
    case None => Step(Response(500, Failure), s)
    case Some(s1) =>
      if InsertTransaction in faults then
        var restored := if RestoreBalance in faults then s1 else s1.(users := s.users[req.usuarioId := Some(p.saldo)]);
        Step(Response(500, Failure), if req.usuarioId in s.users then restored else s1)
      else
        Step(Response(201, Recorded(novo, |s.rows|)), s1.(rows := s.rows + [RowOf(req, p.kind)]))
  }

  /** The POST branch of the handler, its steps run back to back. */
  function Post(s: Store, req: PostRequest, faults: Faults): (r: Step<Response>)
    requires req.verb != "GET"
    // missing fields or an unknown kind: 400 and nothing written
    ensures req.verb == "POST" && (req.usuarioId == "" || req.valor.None? || req.tipo == "" || !IsKind(ToLower(req.tipo))) ==>
      r.resp.code == 400 && r.next == s
    // an unconfirmed deposit is acknowledged and changes nothing
    ensures req.verb == "POST" && req.usuarioId != "" && req.valor.Some? && ToLower(req.tipo) == Deposit
            && ToLower(StatusOf(req)) != Completed ==>
      r == Step(Response(200, Ignored), s)
    // success: one row appended, and the balance moved by that row's signed amount
    ensures r.resp.code == 201 ==>
      && req.valor.Some? && IsKind(ToLower(req.tipo))
      && r.next.rows == s.rows + [RowOf(req, ToLower(req.tipo))]
      && Balance(r.next, req.usuarioId) == Balance(s, req.usuarioId) + SignedAmount(RowOf(req, ToLower(req.tipo)))
      && r.resp.body == Recorded(Balance(r.next, req.usuarioId), |s.rows|)
    // a failed insert appends nothing and, when the compensating write succeeds, leaves every
    // balance as it was read
    ensures r.resp.code != 201 ==> r.next.rows == s.rows
    ensures r.resp.code != 201 && RestoreBalance !in faults ==>
      forall w :: Balance(r.next, w) == Balance(s, w)
    // only this user's balance can move
    ensures forall w :: w != req.usuarioId ==> Balance(r.next, w) == Balance(s, w)
    // a well-formed request for an existing user is recorded when no store call fails
    ensures req.verb == "POST" && req.usuarioId != "" && req.usuarioId in s.users && req.valor.Some?
            && req.tipo != "" && IsKind(ToLower(req.tipo))
            && (ToLower(req.tipo) == Deposit ==> ToLower(StatusOf(req)) == Completed)
            && faults == {} ==>
      r.resp.code == 201
  {
    var p := Prepare(s, req, faults);
    match p
    case Reject(resp) => Step(resp, s)
    case Apply(_, _) => Commit(s, req, p, faults)
  }

  /** A successful POST of a row whose status is exactly `completed` keeps every user's
      balance reconciled with the ledger. */
  lemma PostPreservesReconciliation(s: Store, req: PostRequest, faults: Faults, u: string)
    requires req.verb != "GET"
    requires Reconciled(s, u)
    requires Post(s, req, faults).resp.code == 201 && StatusOf(req) == Completed
    ensures Reconciled(Post(s, req, faults).next, u)
  {
    var r := Post(s, req, faults);
    var row := RowOf(req, ToLower(req.tipo));
    LedgerSumAppend(s.rows, row, u);
  }

  /** A bet recorded with any status other than `completed` still debits the balance, but
      the ledger does not count it: the balance and the ledger drift apart by the stake. */
  lemma PendingBetBreaksReconciliation(s: Store, req: PostRequest, faults: Faults)
    requires req.verb != "GET"
    requires Reconciled(s, req.usuarioId)
    requires Post(s, req, faults).resp.code == 201
    requires ToLower(req.tipo) == Bet && StatusOf(req) != Completed && req.valor.value != 0
    ensures !Reconciled(Post(s, req, faults).next, req.usuarioId)
  {
    var row := RowOf(req, ToLower(req.tipo));
    LedgerSumAppend(s.rows, row, req.usuarioId);
  }

  /** The POST has no external-id deduplication: sending the same confirmed deposit twice
      records two rows and credits the balance twice. */
  lemma RepeatedDepositPostCreditsTwice(s: Store, req: PostRequest)
    requires req.verb == "POST" && req.usuarioId != "" && req.usuarioId in s.users && req.valor.Some?
    requires ToLower(req.tipo) == Deposit && ToLower(StatusOf(req)) == Completed
    ensures var s2 := Post(Post(s, req, {}).next, req, {}).next;
      && |s2.rows| == |s.rows| + 2
      && Balance(s2, req.usuarioId) == Balance(s, req.usuarioId) + 2 * Abs(req.valor.value)
  {
  }

  // ---------------------------------------------------------------------------------------
  // GET

  /** The listing query string: `userId`/`usuario_id` (`""` when absent), the parsed `page`
      and `pageSize` (`None` when absent), `type` and `sort` (`""` when absent). */
  datatype ListQuery = ListQuery(
    userId: string,
    usuarioId: string,
    page: Option<int>,
    pageSize: Option<int>,
    tipo: string,
    sort: string)

  /** One listed row, in the shape the handler returns. */
  datatype Item = Item(id: nat, tipo: string, amount: int, status: string, description: string, externalId: Option<string>)

  datatype ListReply =
    | ListRejected(code: int)
    | TransactionPage(items: seq<Item>, total: nat, totalPages: int, currentPage: int)

  const MaxPageSize := 100

  /** `req.query.userId || req.query.usuario_id`. */
  function Owner(q: ListQuery): string {
    if q.userId != "" then q.userId else q.usuarioId
  }

  /** The `tipo` filter: none when the lower-cased `type` (default `all`) is `all`. */
  function KindFilter(q: ListQuery): (f: Option<string>)
    ensures f.None? <==> q.tipo == "" || ToLower(q.tipo) == "all"
    ensures f.Some? ==> f.value == ToLower(q.tipo)
  {
    var t := if q.tipo == "" then "all" else ToLower(q.tipo);
    if t == "all" then None else Some(t)
  }

  /** Ascending date order exactly when `sort` is `date`; the default `-date` is descending. */
  function Ascending(q: ListQuery): bool {
    q.sort == "date"
  }

  function PageOf(q: ListQuery): int {
    ClampPage(q.page.GetOr(1))
  }

  function PageSizeOf(q: ListQuery): int {
    ClampSize(q.pageSize.GetOr(20), MaxPageSize)
  }

  /** The rows of `owner` that pass the kind filter. */
  predicate Listed(r: Row, owner: string, kind: Option<string>) {
    r.usuarioId == owner && (kind.None? || r.tipo == kind.value)
  }

  function Reverse(ids: seq<nat>): (r: seq<nat>)
    ensures |r| == |ids|
    ensures forall i :: 0 <= i < |ids| ==> r[i] == ids[|ids| - 1 - i]
    ensures forall x :: x in ids ==> x in r
  {
    var r := seq(|ids|, i requires 0 <= i < |ids| => ids[|ids| - 1 - i]);
    assert forall i :: 0 <= i < |ids| ==> r[|ids| - 1 - i] == ids[i];
    r
  }

  /** The ids of the listed rows in the requested order (insertion order stands for
      `criado_em`). */
  function Ordered(s: Store, q: ListQuery): (ids: seq<nat>)
    ensures forall j :: 0 <= j < |ids| ==> ids[j] < |s.rows| && Listed(s.rows[ids[j]], Owner(q), KindFilter(q))
    ensures forall k :: 0 <= k < |s.rows| && Listed(s.rows[k], Owner(q), KindFilter(q)) ==> k in ids
    ensures Ascending(q) ==> forall i, j :: 0 <= i < j < |ids| ==> ids[i] < ids[j]
    ensures !Ascending(q) ==> forall i, j :: 0 <= i < j < |ids| ==> ids[i] > ids[j]
  {
    var owner, kind := Owner(q), KindFilter(q);
    var ids := Select(s.rows, r => Listed(r, owner, kind));
    if Ascending(q) then ids else Reverse(ids)
  }

  /** The response shape of one row: a missing description becomes `''`, an empty external
      id becomes null. */
  function ItemOf(s: Store, id: nat): (it: Item)
    requires id < |s.rows|
    ensures it.id == id && it.amount == s.rows[id].valor && it.tipo == s.rows[id].tipo
    ensures it.status == s.rows[id].status && it.description == s.rows[id].descricao.GetOr("")
    ensures it.externalId.None? <==> s.rows[id].externalId.None? || s.rows[id].externalId == Some("")
    ensures it.externalId.Some? ==> it.externalId == s.rows[id].externalId
  {
    var t := s.rows[id];
    Item(id, t.tipo, t.valor, t.status, t.descricao.GetOr(""),
         if t.externalId == Some("") then None else t.externalId)
  }

  /** The GET branch of the handler. */
  function List(s: Store, q: ListQuery, faults: Faults): (r: ListReply)
    ensures r.ListRejected? <==> Owner(q) == "" || SelectList in faults
    ensures Owner(q) == "" ==> r == ListRejected(400)
    ensures r.TransactionPage? ==>
      && |r.items| <= PageSizeOf(q) <= MaxPageSize
      && r.currentPage == PageOf(q) >= 1
      && r.total == |Ordered(s, q)|
      && r.totalPages >= 1 && r.total <= r.totalPages * PageSizeOf(q)
      && (r.totalPages == 1 || (r.totalPages - 1) * PageSizeOf(q) < r.total)
      && r.items == Items(s, Window(s, q))
  {
    if Owner(q) == "" then ListRejected(400)
    else if SelectList in faults then ListRejected(500)
    else
      var size := PageSizeOf(q);
      var ids := Ordered(s, q);
      var n := TotalPages(|ids|, size);
      assert n == 1 || (n - 1) * size < |ids|;
      TransactionPage(Items(s, Window(s, q)), |ids|, n, PageOf(q))
  }

  /** The ids of the requested page: the `.range(from, to)` window of the ordered ids. */
  function Window(s: Store, q: ListQuery): (ids: seq<nat>)
    ensures |ids| <= PageSizeOf(q)
    ensures forall j :: 0 <= j < |ids| ==> ids[j] < |s.rows|
  {
    var w := RangeOf(PageOf(q), PageSizeOf(q));
    SliceElements(Ordered(s, q), w);
    Slice(Ordered(s, q), w)
  }

  function Items(s: Store, ids: seq<nat>): (items: seq<Item>)
    requires forall j :: 0 <= j < |ids| ==> ids[j] < |s.rows|
    ensures |items| == |ids|
    ensures forall j :: 0 <= j < |ids| ==> items[j] == ItemOf(s, ids[j])
  {
    seq(|ids|, j requires 0 <= j < |ids| => ItemOf(s, ids[j]))
  }

  /** Every listed item is a row of the requested user that passes the kind filter. */
  lemma ListedItemsBelongToOwner(s: Store, q: ListQuery, faults: Faults)
    requires List(s, q, faults).TransactionPage?
    ensures var r := List(s, q, faults);
      forall j :: 0 <= j < |r.items| ==>
        r.items[j].id < |s.rows| && Listed(s.rows[r.items[j].id], Owner(q), KindFilter(q))
  {
    var ids := Ordered(s, q);
    var w := RangeOf(PageOf(q), PageSizeOf(q));
    var window := Window(s, q);
    SliceElements(ids, w);
    var r := List(s, q, faults);
    assert r.items == Items(s, window);
    forall j | 0 <= j < |r.items|
      ensures r.items[j].id < |s.rows| && Listed(s.rows[r.items[j].id], Owner(q), KindFilter(q))
    {
      assert r.items[j] == ItemOf(s, window[j]);
    }
  }
}

=== FILE: usuarios.dfy ===
/** `GET /api/usuarios`: the admin listing of users, a page at a time. The users table is
    an external store here: the query's result is an input, and the model computes the query
    the handler sends and the pagination block it answers with. */
module Usuarios {
  import opened Common
  import opened Text
  import opened Pagination

  /** The query string; `page`/`pageSize` are the parsed numbers (`None` when absent),
      `orderBy`/`orderDir` are `None` when absent. */
  datatype Query = Query(page: Option<int>, pageSize: Option<int>, q: string, orderBy: Option<string>, orderDir: Option<string>)

  /** The query sent: optional name/e-mail search, order column and direction, row window. */
  datatype Plan = Plan(page: int, pageSize: int, window: Window, search: Option<string>, orderBy: string, ascending: bool)

  const MaxPageSize := 200

  /** Builds the query for an accepted request. */
  function PlanOf(query: Query): (p: Plan)
    ensures p.page >= 1 && 1 <= p.pageSize <= MaxPageSize
    // the requested page, or page 1 when it is missing or below 1
    ensures p.page == if query.page.Some? && query.page.value >= 1 then query.page.value else 1
    // the requested size held between 1 and 200, or 100 when it is missing
    ensures query.pageSize.None? ==> p.pageSize == 100
    ensures query.pageSize.Some? ==>
      p.pageSize == if query.pageSize.value < 1 then 1 else if query.pageSize.value > MaxPageSize then MaxPageSize else query.pageSize.value
    ensures p.window.first == (p.page - 1) * p.pageSize
    ensures p.window.last - p.window.first + 1 == p.pageSize
    ensures p.ascending <==> ToLower(query.orderDir.GetOr("desc")) == "asc"
    ensures p.search.None? <==> query.q == ""
  {
    var page := ClampPage(query.page.GetOr(1));
    var size := ClampSize(query.pageSize.GetOr(100), MaxPageSize);
    Plan(page, size, RangeOf(page, size),
         if query.q == "" then None else Some(query.q),
         query.orderBy.GetOr("created_at"),
         ToLower(query.orderDir.GetOr("desc")) == "asc")
  }

  /** The `pagination` block of the response. */
  datatype PageBlock = PageBlock(total: nat, totalPages: int, currentPage: int, pageSize: int)

  /** The listing query's outcome: an error, or rows (possibly null) and a count (possibly
      null). */
  datatype QueryResult<T> = QueryFailed | QueryRows(data: Option<seq<T>>, count: Option<nat>)

  datatype Reply<T> =
    | Preflight              // the CORS helper's 204 answer to `OPTIONS`
    | Rejected(code: int)
    | UserPage(users: seq<T>, pagination: PageBlock)

  /** The handler: `OPTIONS` is answered by the preflight, any other method but GET is a
      405. */
  function Handle<T>(verb: string, query: Query, result: QueryResult<T>): (r: Reply<T>)
    ensures verb == "OPTIONS" ==> r == Preflight
    ensures verb != "GET" && verb != "OPTIONS" ==> r == Rejected(405)
    ensures verb == "GET" && result.QueryFailed? ==> r == Rejected(500)
    // a successful query answers the page of returned rows, or none when the data is null
    ensures verb == "GET" && result.QueryRows? ==> r.UserPage? && r.users == result.data.GetOr([])
    ensures r.UserPage? ==>
      && verb == "GET" && result.QueryRows?
      && r.pagination.totalPages >= 1
      && r.pagination.total <= r.pagination.totalPages * r.pagination.pageSize
      && (r.pagination.totalPages == 1 || (r.pagination.totalPages - 1) * r.pagination.pageSize < r.pagination.total)
      && r.pagination.currentPage == PlanOf(query).page
      && r.pagination.pageSize == PlanOf(query).pageSize
      && (result.count.Some? ==> r.pagination.total == result.count.value)
      && (result.count.None? ==> r.pagination.total == |result.data.GetOr([])|)
  {
    if verb == "OPTIONS" then Preflight
    else if verb != "GET" then Rejected(405)
    else match result
      case QueryFailed => Rejected(500)
      case QueryRows(data, count) =>
        var p := PlanOf(query);
        var rows := data.GetOr([]);
        var total := count.GetOr(|rows|);
        UserPage(rows, PageBlock(total, TotalPages(total, p.pageSize), p.page, p.pageSize))
  }
}

=== FILE: webhook.dfy ===
/** The payment provider's notification (`POST /api/webhook_pixup`): unwrap the payload,
    resolve the external id, drop unconfirmed statuses, find the deposit row, claim it with a
    conditional update that only matches a row not yet `completed`, and credit the balance
    only when this call's update returned the row.

    Like the confirmation handler it is written as store steps: `Locate` (reads only),
    `CompareAndSet` (the conditional update) and `Credit` (balance read then write). */
module Webhook {
  import opened Common
  import opened Text
  import opened Ledger
  import opened Http

  /** The fields the handler reads from a payload object; `""` is a missing or falsy field. */
  datatype Fields = Fields(externalId: string, externalIdCamel: string, txid: string, status: string)

  /** A request body, possibly wrapping the payload in `requestBody`. */
  datatype Body = Body(top: Fields, requestBody: Option<Fields>)

  datatype Request = Request(verb: string, body: Option<Body>)

  const EmptyFields := Fields("", "", "", "")

  /** `req.body?.requestBody || req.body || {}`. */
  function Payload(req: Request): (f: Fields)
    ensures req.body.Some? && req.body.value.requestBody.Some? ==> f == req.body.value.requestBody.value
    ensures req.body.Some? && req.body.value.requestBody.None? ==> f == req.body.value.top
    ensures req.body.None? ==> f == EmptyFields
  {
    match req.body
    case None => EmptyFields
    case Some(b) => b.requestBody.GetOr(b.top)
  }

  /** `external_id || externalId || txid || null`: the first non-empty alias, in that order. */
  function ResolveId(f: Fields): (id: Option<string>)
    ensures id.None? <==> f.externalId == "" && f.externalIdCamel == "" && f.txid == ""
    ensures id.Some? ==> id.value != ""
    ensures f.externalId != "" ==> id == Some(f.externalId)
    ensures f.externalId == "" && f.externalIdCamel != "" ==> id == Some(f.externalIdCamel)
    ensures f.externalId == "" && f.externalIdCamel == "" && f.txid != "" ==> id == Some(f.txid)
  {
    if f.externalId != "" then Some(f.externalId)
    else if f.externalIdCamel != "" then Some(f.externalIdCamel)
    else if f.txid != "" then Some(f.txid)
    else None
  }

  /** `String(status || '').toUpperCase()` is `PAID` or `COMPLETED`. */
  predicate IsConfirmed(f: Fields) {
    var st := ToUpper(f.status);
    st == "PAID" || st == "COMPLETED"
  }

  /** `s` spells the upper-case word `t` with each letter in either case. */
  predicate CaseVariantOf(s: string, t: string) {
    |s| == |t| && forall i :: 0 <= i < |s| ==> s[i] == t[i] || s[i] as int == t[i] as int + 32
  }

  /** Upper-casing maps `s` to the upper-case word `t` exactly when `s` is a case variant
      of `t`. */
  lemma {:induction false} UpperEqualsIffCaseVariant(s: string, t: string)
    requires forall i :: 0 <= i < |t| ==> IsUpper(t[i])
    ensures ToUpper(s) == t <==> CaseVariantOf(s, t)
  {
    var r := ToUpper(s);
    if r == t {
      assert forall i :: 0 <= i < |s| ==> s[i] == t[i] || s[i] as int == t[i] as int + 32 by {
        forall i | 0 <= i < |s| ensures s[i] == t[i] || s[i] as int == t[i] as int + 32 {
          assert r[i] == t[i];
        }
      }
    }
    if CaseVariantOf(s, t) {
      forall i | 0 <= i < |s| ensures r[i] == t[i] {
        if s[i] != t[i] {
          assert IsLower(s[i]);
        }
      }
      assert r == t;
    }
  }

  /** The status check ignores case, and nothing else: a status confirms exactly when it is
      `PAID` or `COMPLETED` with each letter in either case. */
  lemma ConfirmedExactlyForCaseVariants(f: Fields)
    ensures IsConfirmed(f) <==> CaseVariantOf(f.status, "PAID") || CaseVariantOf(f.status, "COMPLETED")
  {
    UpperEqualsIffCaseVariant(f.status, "PAID");
    UpperEqualsIffCaseVariant(f.status, "COMPLETED");
  }

  /** `paid` and `Completed` confirm; `pending` and `paid ` (with a trailing space) do not. */
  lemma ConfirmedExamples()
    ensures IsConfirmed(Fields("", "", "", "paid"))
    ensures IsConfirmed(Fields("", "", "", "Completed"))
    ensures !IsConfirmed(Fields("", "", "", "pending"))
    ensures !IsConfirmed(Fields("", "", "", "paid "))
  {
    ConfirmedExactlyForCaseVariants(Fields("", "", "", "paid"));
    ConfirmedExactlyForCaseVariants(Fields("", "", "", "Completed"));
    ConfirmedExactlyForCaseVariants(Fields("", "", "", "pending"));
    ConfirmedExactlyForCaseVariants(Fields("", "", "", "paid "));
  }

  /** What the read step decided: an answer, or the deposit row to claim as read. */
  datatype Plan = Reject(resp: Response) | Target(id: nat, row: Row)

  /** The read step: method, status filter (before the id check), id presence, and the
      `.single()` lookup of the deposit row. */
  function Locate(s: Store, req: Request, faults: Faults): (p: Plan)
    ensures p.Target? ==> req.verb == "POST" && IsConfirmed(Payload(req))
    ensures p.Target? ==> ResolveId(Payload(req)).Some?
                          && FindDeposit(s.rows, ResolveId(Payload(req)).value) == OneRow(p.id)
                          && p.id < |s.rows| && p.row == s.rows[p.id]
    ensures req.verb == "POST" && !IsConfirmed(Payload(req)) ==> p == Reject(Response(200, Ignored))
  {
    if req.verb == "OPTIONS" then Reject(Response(200, NoContent))
    else if req.verb != "POST" then Reject(Response(405, NoContent))
    else
      var f := Payload(req);
      if !IsConfirmed(f) then Reject(Response(200, Ignored))
      else match ResolveId(f)
        case None => Reject(Response(400, Failure))
        case Some(e) =>
          if SelectDeposit in faults then Reject(Response(404, Failure))
          else match FindDeposit(s.rows, e)
            case OneRow(id) => Target(id, s.rows[id])
            case _ => Reject(Response(404, Failure))
  }

  /** The outcome of the conditional update. */
  datatype Cas = CasFailed | CasLost | CasWon(next: Store)

  /** `update({status: 'completed'}).eq('id', id).neq('status', 'completed')`: the row is
      returned, and so the claim won, only when this call moved it to `completed`. */
  function CompareAndSet(s: Store, id: nat, faults: Faults): (c: Cas)
    ensures c.CasWon? <==> UpdateDeposit !in faults && id < |s.rows| && s.rows[id].status != Completed
    ensures c.CasWon? ==> c.next.users == s.users
                          && c.next.rows == s.rows[id := s.rows[id].(status := Completed)]
  {
    if UpdateDeposit in faults then CasFailed
    else if id < |s.rows| && s.rows[id].status != Completed then
      CasWon(s.(rows := s.rows[id := s.rows[id].(status := Completed)]))
    else CasLost
  }

  /** The winner's credit of `Number(valor) || 0` to the row's user, using the row as read
      by `Locate`; nothing to credit when that amount is not positive. */
  function Credit(s: Store, row: Row, faults: Faults): (r: Step<Response>)
    ensures r.next.rows == s.rows
    ensures r.next.users != s.users ==>
      && row.valor > 0 && r.resp == Response(200, Succeeded)
      && Balance(r.next, row.usuarioId) == Balance(s, row.usuarioId) + row.valor
    ensures row.valor > 0 && SelectUser !in faults && UpdateBalance !in faults && row.usuarioId in s.users ==>
      r.next.users != s.users
    ensures forall w :: w != row.usuarioId ==> Balance(r.next, w) == Balance(s, w)
    // an unreadable user row is a 404 and a failed balance write a 500, neither changing anything
    ensures row.valor > 0 && (SelectUser in faults || row.usuarioId !in s.users) ==>
      r == Step(Response(404, Failure), s)
    ensures row.valor > 0 && SelectUser !in faults && row.usuarioId in s.users && UpdateBalance in faults ==>
      r == Step(Response(500, Failure), s)
  {
    if row.valor <= 0 then Step(Response(200, Succeeded), s)
    else match ReadSaldo(s, row.usuarioId, faults)
      case None => Step(Response(404, Failure), s)
      case Some(saldo) =>
        var novo := saldo + row.valor;
        match WriteSaldo(s, row.usuarioId, novo, faults)
        case None => Step(Response(500, Failure), s)
        case Some(s2) => Step(Response(200, Succeeded), s2)
  }

  /** The whole handler, its steps run back to back. */
  function Handle(s: Store, req: Request, faults: Faults): (r: Step<Response>)
    // an unconfirmed status is acknowledged and changes nothing, whether or not an id is present
    ensures req.verb == "POST" && !IsConfirmed(Payload(req)) ==> r == Step(Response(200, Ignored), s)
    // a confirmed status without an id is a 400
    ensures req.verb == "POST" && IsConfirmed(Payload(req)) && ResolveId(Payload(req)).None? ==>
      r == Step(Response(400, Failure), s)
    // no deposit row (or no unique one) is a 404 and changes nothing
    ensures req.verb == "POST" && IsConfirmed(Payload(req)) && ResolveId(Payload(req)).Some?
            && !FindDeposit(s.rows, ResolveId(Payload(req)).value).OneRow? ==>
      r == Step(Response(404, Failure), s)
    // the webhook never inserts a row
    ensures |r.next.rows| == |s.rows|
    // a settled deposit is never credited again
    ensures IsConfirmed(Payload(req)) && ResolveId(Payload(req)).Some? && Settled(s, ResolveId(Payload(req)).value) ==>
      r.next == s
    // a credit happens only to the claim's winner, by the row's amount, to the row's user
    ensures r.next.users != s.users ==>
      && req.verb == "POST" && IsConfirmed(Payload(req)) && ResolveId(Payload(req)).Some?
      && var e := ResolveId(Payload(req)).value;
      && var k := FindDeposit(s.rows, e).id;
      && FindDeposit(s.rows, e).OneRow? && s.rows[k].status != Completed && s.rows[k].valor > 0
      && Balance(r.next, s.rows[k].usuarioId) == Balance(s, s.rows[k].usuarioId) + s.rows[k].valor
      && r.resp == Response(200, Succeeded)
    // no balance but the target row's owner's ever moves
    ensures forall w :: Balance(r.next, w) != Balance(s, w) ==>
      && ResolveId(Payload(req)).Some?
      && FindDeposit(s.rows, ResolveId(Payload(req)).value).OneRow?
      && w == s.rows[FindDeposit(s.rows, ResolveId(Payload(req)).value).id].usuarioId
    // the winner of the claim credits a positive amount to an existing user when no store call fails
    ensures req.verb == "POST" && IsConfirmed(Payload(req)) && ResolveId(Payload(req)).Some? && faults == {} ==>
      var e := ResolveId(Payload(req)).value;
      FindDeposit(s.rows, e).OneRow? ==>
        var row := s.rows[FindDeposit(s.rows, e).id];
        row.status != Completed && row.valor > 0 && row.usuarioId in s.users ==>
          && r.resp == Response(200, Succeeded)
          && Balance(r.next, row.usuarioId) == Balance(s, row.usuarioId) + row.valor
    // a failed conditional update is a 500, and a claim already taken is `alreadyCompleted`;
    // neither changes anything
    ensures req.verb == "POST" && IsConfirmed(Payload(req)) && ResolveId(Payload(req)).Some?
            && FindDeposit(s.rows, ResolveId(Payload(req)).value).OneRow? && SelectDeposit !in faults ==>
      && (UpdateDeposit in faults ==> r == Step(Response(500, Failure), s))
      && (UpdateDeposit !in faults && Settled(s, ResolveId(Payload(req)).value) ==>
            r == Step(Response(200, AlreadyCompleted), s))
  {
    match Locate(s, req, faults)
    case Reject(resp) => Step(resp, s)
    case Target(id, row) =>
      match CompareAndSet(s, id, faults)
      case CasFailed => Step(Response(500, Failure), s)
      case CasLost => Step(Response(200, AlreadyCompleted), s)
      case CasWon(s1) => Credit(s1, row, faults)
  }

  /** Every call either leaves the store exactly as it was or leaves the deposit of its
      external id settled. */
  lemma HandleSettlesOrLeavesUnchanged(s: Store, req: Request, faults: Faults)
    ensures var r := Handle(s, req, faults);
      r.next == s || (ResolveId(Payload(req)).Some? && Settled(r.next, ResolveId(Payload(req)).value))
  {
    var p := Locate(s, req, faults);
    if p.Target? {
      var e := ResolveId(Payload(req)).value;
      var c := CompareAndSet(s, p.id, faults);
      if c.CasWon? {
        FindDepositAfterUpdate(s.rows, p.id, s.rows[p.id].(status := Completed), e);
        assert Handle(s, req, faults).next.rows == c.next.rows;
      }
    }
  }

  /** A failed balance write is not rolled back: the row stays completed with no credit, and
      a redelivery of the same notification finds the row completed and credits nothing. */
  lemma FailedCreditIsNotRolledBack(s: Store, req: Request, faults: Faults, retry: Faults)
    requires Locate(s, req, faults).Target?
    requires var p := Locate(s, req, faults);
      s.rows[p.id].status != Completed && s.rows[p.id].valor > 0
    requires UpdateDeposit !in faults && UpdateBalance in faults
    requires SelectDeposit !in retry && UpdateDeposit !in retry
    ensures var r := Handle(s, req, faults);
      && r.resp.code != 200 && r.next.users == s.users
      && Settled(r.next, ResolveId(Payload(req)).value)
      && Handle(r.next, req, retry) == Step(Response(200, AlreadyCompleted), r.next)
  {
    HandleSettlesOrLeavesUnchanged(s, req, faults);
    var p := Locate(s, req, faults);
    var r := Handle(s, req, faults);
    assert r.next.rows[p.id].status == Completed;
  }

  /** Once the deposit is settled, every notification naming it changes nothing. */
  lemma SettledIsNoop(s: Store, req: Request, faults: Faults, e: string)
    requires ResolveId(Payload(req)) == Some(e) && Settled(s, e)
    ensures Handle(s, req, faults).next == s
  {
  }
}
